=== FILE: README.md ===
# Thermostat process: a Dafny model

This project models the core of a Node.js home thermostat. The thermostat
reads the room temperature from a sensor file, learns the heating relay's
state over MQTT, and switches the relay with a two-threshold (hysteresis)
rule around a scheduled target temperature.

What is modelled:

- **The controller** (`thermostat.js`):
  - the state record and the three event handlers;
  - the run-once gate `tryKeepTemperature`;
  - the timers of continuous mode;
  - the body of `keepTemperature`, including its try/catch;
  - the early return on a falsy reading;
  - the strict `<` / `>` threshold comparisons.
- **The older controller** (`Thermostat.js`): its relay starts as `false`,
  its handlers only store values, and only the timer evaluates. Its
  `keepTemperature` returns a value.
- **The transport** (`config/communication.js`):
  - the MQTT message handler, with the strict comparison `message === '1' || message === 1`;
  - `toggleHeating`, `requestHeatingState` and `requestSomeoneIsHome`;
  - the sensor-file parser `requestTemp`.
- **The pieces of `requestTemp`**, each modelled in JavaScript's own terms:
  - `split('\n')`;
  - `trim()`;
  - the regular expression `/Temperature = (\d*.\d*)/`. Its `.` is unescaped, takes any character but a line terminator, and backtracks;
  - `parseFloat`, as a longest-prefix decimal literal valued in exact reals;
  - de-duplication by the first line's timestamp.
- **The interface** (`CommunicationInterface.js`):
  - event forwarding;
  - the normalisation of a non-number temperature through `parseFloat`;
  - the default `requestTemp`.
- **The wiring**: `requestInfo()`, the constructor's start-up, and the relay's first answer.

The model follows these conventions:

- Every side effect is a value:
  - a relay command, a state log or a close of the connections is an `Effect`;
  - an MQTT publication is a `Publish`.
- Every event is a step of a pure transition function.
- A JavaScript number is `Num`, which is a finite real, NaN or an infinity.
- `heatingOn` is `Relay`: `Unknown` stands for `null`.
- Each evaluation carries the answer of the configuration file and the
  schedule package as a `Schedule` value. That value is a program with
  name, temperature and thresholds, or an exception. Both are reloaded at
  every evaluation, so they can change between events.

The code and its documented design differ in several places. The model
follows the code:

- In continuous mode the timers evaluate while the relay state is still
  unknown, and an unknown relay counts as off
  (`Thermostat.TimerBypassesGate`, `Hysteresis.UnknownActsAsOff`).
- Occupancy is stored but never used (`Evaluation.OccupancyIgnored`).
- A reading that `parseFloat` cannot read is emitted as NaN, not rejected
  (`CommunicationInterface.UnreadableTemperatureIsEmitted`).
- A reading of 0 degrees is taken for "no reading"
  (`Hysteresis.ZeroDegreesIsUnavailable`).
- On the early return no state log is written (`logState` is not called;
  the error message goes to `logError`), but the scheduled temperature has
  already been stored (`Evaluation.ProgramStoredBeforeEarlyReturn`).

Consequences of the code as written are stated as lemmas:

- The MQTT client delivers a Buffer. A Buffer is never strictly equal to
  `'1'` or `1`, so every relay report reads as "off"
  (`Communication.BufferPayloadReadsAsOff`,
  `Process.FirstEvaluationOnRelayAnswer`). As only a report of "on"
  makes the switch-off branch reachable, the thermostat in continuous mode
  then never sends "off" (`Thermostat.NoSwitchOffUntilRelayOn`).
- A negative reading `Temperature = -3.2` is captured as `-3`
  (`Communication.NegativeReadingTruncated`).

## Model

| member | source | states |
|---|---|---|
| `Communication.OnMessage` | config/communication.js:17-25 | A message on the relay's output topic becomes exactly one heating-state event, "on" iff the payload is strictly the string `'1'` or the number 1; messages on any other topic are dropped |
| `Communication.BufferPayloadReadsAsOff` | config/communication.js:21 | Whatever bytes the relay sends, a Buffer payload is reported as heating off |
| `Communication.RequestHeatingState` | config/communication.js:51-53 | The status request is the payload `status` on the relay's input topic |
| `Communication.ToggleHeating` | config/communication.js:55-57 | A command goes to the relay's input topic, with payload `on` exactly when switching on and `off` exactly when switching off |
| `Communication.CommandsDistinct` | config/communication.js:51-57 | The relay can tell the on command, the off command and the status request apart |
| `Communication.RequestSomeoneIsHome` | config/communication.js:59-62 | Occupancy is always reported as "someone is home" |
| `Communication.Reading` | config/communication.js:31-41 | A file yields a reading exactly when it has at least two lines and the pattern matches its last line; the reading is the trimmed first line and the group captured on the last line |
| `Communication.RequestTemp` | config/communication.js:31-48 | The poll returns true exactly when it emits an event, which happens exactly when the file yields a reading whose timestamp differs from the last accepted one; then the timestamp is stored and the parsed group is emitted with it, otherwise the stored timestamp is unchanged |
| `Communication.RequestTempDeduplicates` | config/communication.js:36-44 | Polling an unchanged file a second time, from the timestamp the first poll left, never accepts |
| `Communication.RequestTempTrueThenFalse` | config/communication.js:31-48 | A readable file polled from the initial state is accepted once and refused the second time |
| `Communication.SingleLineRejected` | config/communication.js:33-34 | A file without a line break is refused and leaves the stored timestamp unchanged |
| `Communication.TrailingNewlineRejected` | config/communication.js:33-41 | A file ending in a line break has an empty last line, is refused and leaves the stored timestamp unchanged |
| `Communication.ReadingAccepted` | config/communication.js:43-47 | A reading with a new timestamp is accepted: the timestamp is stored and the parsed group is emitted with it |
| `Communication.ReadingOfLines` | config/communication.js:33-41 | A file of two or more lines without stray line breaks yields a reading exactly when the pattern matches its last line; the reading is the trimmed first line and the group captured on the last line |
| `Communication.ReadingOfTwoLines` | config/communication.js:33-41 | A two-line file reads as its trimmed first line and the group matched on its second line |
| `Communication.DecimalFileReading` | config/communication.js:33-41 | A timestamp line followed by `Temperature = a.b` reads as that timestamp and the group `a.b` |
| `Communication.DecimalReadingAccepted` | config/communication.js:31-48 | Such a file with a new timestamp emits the temperature a + 0.b with that timestamp |
| `Communication.NegativeFileReading` | config/communication.js:39-41 | `Temperature = -a.b` captures only `-a`: the `.` of the pattern takes the minus sign |
| `Communication.NegativeReadingTruncated` | config/communication.js:39-45 | A negative reading with decimal places is emitted as the negated integer part |
| `CommunicationInterface.HeatingStateUpdate` | CommunicationInterface.js:70-72 | The heating state is forwarded unchanged as a heating-state event |
| `CommunicationInterface.SomeoneIsHomeStatusUpdate` | CommunicationInterface.js:82-84 | The occupancy flag is forwarded unchanged as an occupancy event |
| `CommunicationInterface.TemperatureUpdate` | CommunicationInterface.js:74-80 | A number is forwarded as it is, anything else is replaced by what `parseFloat` reads from it; the timestamp is forwarded unchanged |
| `CommunicationInterface.UnreadableTemperatureIsEmitted` | CommunicationInterface.js:74-80 | Any value that is not a number and whose text holds no literal `parseFloat` can read is still emitted, as NaN |
| `CommunicationInterface.NonNumericValuesAreEmittedAsNaN` | CommunicationInterface.js:74-80 | `null`, `undefined`, `true` and `false` are emitted as NaN |
| `CommunicationInterface.TextTemperatureIsParsed` | CommunicationInterface.js:74-80 | A string holding `a.b`, after any leading white space, is emitted as the number a + 0.b |
| `CommunicationInterface.DefaultRequestTemp` | CommunicationInterface.js:18-21 | The default transport reports 20 degrees with the current time |
| `NumberParsing.ParseFloat` | config/communication.js:43 | The result is NaN exactly when the text, after leading white space, starts with no decimal literal; a decimal literal always reads as a finite number |
| `NumberParsing.ParseFloatSkipsWhiteSpace` | CommunicationInterface.js:77 | `parseFloat` ignores leading white space |
| `NumberParsing.ParseFloatOfInteger` | config/communication.js:43 | Digits followed by a character that cannot continue a literal read as the integer they spell |
| `NumberParsing.ParseFloatOfDecimal` | config/communication.js:43 | `a.b` followed by a character that cannot continue a literal reads as a + 0.b |
| `NumberParsing.ParseFloatOfNegativeInteger` | config/communication.js:43 | `-a` followed by a character that cannot continue a literal reads as -a |
| `NumberParsing.ParseFloatOfPaddedDecimal` | CommunicationInterface.js:77 | `a.b` after any leading white space reads as a + 0.b |
| `NumberParsing.ParseFloatNoNumber` | CommunicationInterface.js:76-78 | Text that, after any leading white space, starts with none of a digit, `.`, `+`, `-` or `I` reads as NaN |
| `NumberParsing.ParseFloatExample` | config/communication.js:43 | `21.5` reads as 21.5 |
| `Strings.Split` | config/communication.js:33 | `split('\n')` gives one more piece than there are line breaks, no piece holds a line break, and joining the pieces gives the text back |
| `Strings.SplitJoin` | config/communication.js:33 | Splitting undoes joining for pieces without line breaks |
| `Strings.SplitSingle` | config/communication.js:33-34 | The split gives fewer than two lines exactly when the text has no line break |
| `Strings.SplitTrailingNewline` | config/communication.js:33 | Text ending in a line break splits into pieces whose last one is empty |
| `Strings.DigitsEndIsDigitRun` | config/communication.js:39 | The run of digits read at an index of a text is the run of digits read on the suffix starting there |
| `Strings.Trim` | config/communication.js:36 | `trim()` gives the text with the white space around it removed, neither starting nor ending with white space |
| `Strings.TrimIdempotent` | config/communication.js:36 | Trimming twice is trimming once |
| `TemperatureRegex.FindFrom` | config/communication.js:40 | The scan reports the first index at or after its start where the pattern matches, or that it matches nowhere from there |
| `TemperatureRegex.MatchTemperature` | config/communication.js:39-41 | `exec` fails exactly when the pattern matches at no index; otherwise group 1 is the longest `\d*.\d*` text at the first match |
| `TemperatureRegex.GroupAtIsLongest` | config/communication.js:39 | The computed group is non-empty and is the longest text matching `\d*.\d*` at its position, with backtracking onto the last digit when needed |
| `TemperatureRegex.GroupEnd` | config/communication.js:39 | Group 1 is empty only where the `.` meets a line terminator |
| `TemperatureRegex.MatchAtStart` | config/communication.js:39-40 | A line beginning with `Temperature = ` and a character the `.` can take is matched there |
| `TemperatureRegex.CaptureDecimal` | config/communication.js:39-40 | `Temperature = a.b` followed by a non-digit captures exactly `a.b` |
| `TemperatureRegex.CaptureWholeNumber` | config/communication.js:39-40 | `Temperature = a` at the end of the line captures `a`, the `.` taking back the last digit |
| `TemperatureRegex.CaptureNegative` | config/communication.js:39-40 | `Temperature = -a` followed by a non-digit captures `-a` |
| `TemperatureRegex.ShortLineNoMatch` | config/communication.js:39-41 | A line too short for the literal text and one more character never matches |
| `ControlState.ApplyEvent` | thermostat.js:29-44 | Each handler writes its own fields: the relay state, or the temperature with its timestamp, or the occupancy flag; nothing else changes |
| `ControlState.ApplyEventKeepsRelayKnown` | thermostat.js:30-31 | Once the relay has reported, no event sets its state back to `null` |
| `ControlState.ApplyEventIdempotent` | thermostat.js:29-44 | Delivering the same event twice is the same as delivering it once |
| `Hysteresis.Decide` | thermostat.js:109-122 | No command when the reading is falsy; switch on exactly when the relay is not on and the reading is strictly below target minus low threshold; switch off exactly when the relay is on and the reading is strictly above target plus high threshold; otherwise hold |
| `Hysteresis.DeadBand` | thermostat.js:112-122 | A reading inside the band, its limits included, gives no command whatever the relay state |
| `Hysteresis.StrictThresholds` | thermostat.js:114-119 | No switch-on at the lower threshold (target minus low threshold) and no switch-off at the upper one (target plus high threshold) |
| `Hysteresis.UnknownActsAsOff` | thermostat.js:113 | A relay whose state is still `null` is treated exactly like one that is off |
| `Hysteresis.CommandsChangeTheRelay` | thermostat.js:112-122 | An off relay is never switched off and an on relay is never switched on |
| `Hysteresis.NoImmediateReversal` | thermostat.js:112-122 | With a band that is not inverted, a reading that switches on does not switch off once the relay reports on, and the other way round |
| `Hysteresis.InvertedBandOscillates` | thermostat.js:112-122 | With an inverted band, a reading between the thresholds switches an off relay on and an on relay off |
| `Hysteresis.SwitchOnMonotone` | thermostat.js:112-116 | A colder non-zero reading never turns a switch-on into something else |
| `Hysteresis.SwitchOffMonotone` | thermostat.js:117-121 | A warmer non-zero reading never turns a switch-off into something else |
| `Hysteresis.ZeroDegreesIsUnavailable` | thermostat.js:109-111 | A reading of exactly 0 degrees is taken for "no reading" |
| `Evaluation.WithProgram` | thermostat.js:70-77 | The scheduled temperature and program name are stored, and nothing else changes |
| `Evaluation.KeepTemperature` | thermostat.js:99-127 | A throwing schedule is caught with no effect; otherwise the program is stored; the run stops early exactly when the reading is falsy, with no effect; a completed run's effects are at most one command followed by exactly one state log, and it sends "on" or "off" exactly when the room is too cold or too warm |
| `Evaluation.KeepTemperatureKeepsReadings` | thermostat.js:99-127 | An evaluation leaves readings, relay state and occupancy as they were |
| `Evaluation.ProgramStoredBeforeEarlyReturn` | thermostat.js:101-111 | Without a reading the run stops early, but the scheduled temperature has already been stored |
| `Evaluation.OccupancyIgnored` | thermostat.js:99-127 | The occupancy flag changes none of the commands |
| `Thermostat.TryKeepTemperature` | thermostat.js:91-96 | Nothing happens unless both a temperature and a relay state have arrived; otherwise the effects are exactly those of one evaluation, followed, in run-once mode only, by the closing of the connections |
| `Thermostat.Step` | thermostat.js:29-56 | A handler stores its event; in run-once mode the relay and temperature handlers then call `tryKeepTemperature`, and so does the end of the constructor; in continuous mode a timer tick is exactly one `keepTemperature`, while in run-once mode it does nothing; each step sends at most one relay command |
| `Thermostat.Run` | thermostat.js:29-56 | A sequence of events sends at most one relay command per event |
| `Thermostat.NoSwitchOffUntilRelayOn` | thermostat.js:30-34 | In continuous mode, until the relay is reported on, the heating is never switched off |
| `Thermostat.RunOnceSilentUntilRelayKnown` | thermostat.js:91-96 | In run-once mode nothing at all happens until the relay reports: no command, no log, no closing |
| `Thermostat.RelayStaysKnown` | thermostat.js:29-34 | Once the relay has reported, its state stays known through any events |
| `Thermostat.TimerBypassesGate` | thermostat.js:46-56 | In continuous mode the timer heats a cold room although the relay has never reported |
| `Thermostat.HeatingHandlerFrame` | thermostat.js:30-34 | In continuous mode a relay report only stores the relay state |
| `Thermostat.OccupancyHandlerNeverEvaluates` | thermostat.js:41-43 | An occupancy event only stores the flag, in either mode |
| `Thermostat.RelayReportCompletesReadings` | thermostat.js:91-96 | In run-once mode a relay report after a temperature triggers one evaluation followed by the closing of the connections |
| `LegacyThermostat.KeepTemperatureReturning` | Thermostat.js:52-81 | The evaluation is the shared one; it returns `undefined` exactly on the "temperature not yet available" path and true otherwise |
| `LegacyThermostat.CaughtStillReturnsTrue` | Thermostat.js:76-80 | A run whose schedule threw sends and logs nothing and still returns true |
| `LegacyThermostat.Step` | Thermostat.js:26-48 | Events only store their values; a timer tick is exactly one `keepTemperature`, state and effects; at most one command per step |
| `LegacyThermostat.Run` | Thermostat.js:26-48 | A sequence of events sends at most one relay command per timer tick |
| `LegacyThermostat.StepIsContinuousMode` | Thermostat.js:26-81 | Event by event, the old thermostat behaves as the current one in continuous mode |
| `LegacyThermostat.SameCommandsAsContinuousMode` | Thermostat.js:10-81 | From agreeing states, in particular the two constructors', the old thermostat and the current one in continuous mode send the same relay commands for the same events |
| `LegacyThermostat.InitialStatesAgree` | Thermostat.js:11-18 | The constructors' states differ only in a relay taken as off instead of unknown |
| `LegacyThermostat.OnlyTheTimerSwitches` | Thermostat.js:26-39 | Without a timer tick, events produce no effect and leave the target temperature unchanged |
| `LegacyThermostat.HeatsBeforeRelayReport` | Thermostat.js:16 | Because the relay starts as off, the first tick heats a cold room before the relay has reported |
| `Process.RequestInfo` | thermostat.js:64-68 | One request polls the file, publishes exactly the status request, and emits the accepted reading, if any, followed by "someone is home" |
| `Process.RepeatedRequestInfo` | thermostat.js:64-68 | A second request on an unchanged file emits only the occupancy event |
| `Process.Startup` | thermostat.js:11-27 | The constructor performs no command, log or close; it leaves the relay unknown, someone home, the target at 14 degrees, and the temperature of the accepted reading, if any |
| `Process.FirstEvaluationOnRelayAnswer` | thermostat.js:30-34 | In run-once mode, after a start-up that read a temperature, the relay's first answer reads as "off" and triggers the evaluation of an off relay, followed by the closing of the connections |
| `Process.Outgoing` | config/communication.js:55-57 | Every relay command becomes one publication on the input topic, `on` exactly for a switch-on and `off` exactly for a switch-off |

## Left out

- Reading the sensor file: `requestTemp` reads `temp-reading/dht22/temp` with `fs.readFileSync` and no `try`/`catch` (config/communication.js:32). The file's contents are the `data` parameter. A missing or unreadable file throws out of `requestInfo`, which aborts the constructor or, from the interval, ends the process; that throw is not modelled.
- File and YAML I/O: reading the heating configuration, writing `var/state.json` and appending to the state log. The configuration and the schedule a run sees are a `Schedule` parameter; a state log is the `LogState` effect.
- The schedule package `temperature-config-parser`: it is not part of this model. Its answer, or its exception, is the `Schedule` parameter.
- The MQTT connection, subscription and delivery, and the timers (`setInterval`, `setTimeout`): events arrive in the order given to `Run`, and the delayed `closeConnections` is an effect at the point it is scheduled. An exception thrown while writing the state log, after a command was sent, is not modelled.
- `Date`: an instant is the text it was built from. `new Date(timestamp)`, `prettyDate` and the `updatedAt` field of the state log are not modelled.
- `logDebug`, `logError` and `closeConnections`: CommunicationInterface.js as modelled here does not define them, and config/communication.js:1 loads `../Communication/CommunicationInterface`, a file that is not part of this model. They are taken to be a logging call without effect and the end of the connections.
- Console logging (`console.log`, `console.error`, the `debug` option of the transport).
- `parseFloat`: values are exact reals. IEEE-754 rounding, overflow to Infinity and the sign of zero are not modelled.
- Strings are sequences of Unicode code points, not UTF-16 code units. The white space set of `trim()` and `parseFloat` is the ECMAScript one.
- `NumberParsing.ParseFloatExample`: states only the one reading `21.5`. The general statements are `ParseFloatOfDecimal` and `ParseFloatOfInteger`.
- The example configuration (`config/communication.example.js`) and `utils/log.js`: not part of the modelled core.
- The configuration's `lowThreshold` and `highThreshold` and the schedule's temperature are taken to be finite numbers. A missing threshold makes `desiredTemperature - undefined` NaN at thermostat.js:114 and 119, every comparison with it false, and no command would ever be sent; that case is not modelled.
- `requestToggleHeating` and `logState` of the interface: empty placeholders with no behaviour to model.

=== FILE: communication.dfy ===
/**
 The concrete transport of config/communication.js: heating state over MQTT,
 temperature from a sensor file, occupancy hard-wired to "someone is home".

 MQTT publishing becomes a `Publish` value, an incoming MQTT message becomes
 the event it is turned into, and reading the sensor file becomes a pure
 function of the file's contents and the timestamp last accepted.
 */
module Communication {
  import opened Wrappers
  import opened JsValues
  import opened Strings
  import opened NumberParsing
  import opened TemperatureRegex
  import opened CommunicationInterface

  /** The two MQTT topics of the parameters file: commands go to the relay on
      `topicInput`, the relay reports its state on `topicOutput`. */
  datatype Params = Params(topicInput: string, topicOutput: string)

  /** One `mqttClient.publish(topic, payload)`. */
  datatype Publish = Publish(topic: string, payload: string)

  /** The handler of the subscribed topic: a message on the relay's output
      topic becomes a heating-state event, anything else is dropped. */
  function OnMessage(params: Params, topic: string, message: JsValue): (r: Option<CommEvent>)
    ensures r.Some? <==> topic == params.topicOutput
    ensures r.Some? ==> r.value.HeatingStateChanged?
    ensures r.Some? ==> (r.value.on <==> message == Str("1") || message == Number(Finite(1.0)))
  {
    if topic == params.topicOutput then
      Some(HeatingStateUpdate(message == Str("1") || message == Number(Finite(1.0))))
    else None
  }

  /** The MQTT client hands the handler a Buffer, which is strictly equal
      neither to the string `'1'` nor to the number 1: whatever the relay
      sends, the thermostat is told the heating is off. */
  lemma BufferPayloadReadsAsOff(params: Params, bytes: string)
    ensures OnMessage(params, params.topicOutput, Object(bytes)) == Some(HeatingStateChanged(false))
  {
  }

  /** `requestHeatingState()`: ask the relay for its state. */
  function RequestHeatingState(params: Params): (m: Publish)
    ensures m.topic == params.topicInput && m.payload == "status"
  {
    Publish(params.topicInput, "status")
  }

  /** `toggleHeating(state)`: command the relay on or off. */
  function ToggleHeating(params: Params, on: bool): (m: Publish)
    ensures m.topic == params.topicInput
    ensures m.payload == "on" <==> on
    ensures m.payload == "off" <==> !on
  {
    Publish(params.topicInput, if on then "on" else "off")
  }

  /** The relay can tell the three messages apart: the two commands differ,
      and neither is the status request. */
  lemma CommandsDistinct(params: Params, on: bool, other: bool)
    ensures ToggleHeating(params, on) == ToggleHeating(params, other) <==> on == other
    ensures ToggleHeating(params, on) != RequestHeatingState(params)
  {
  }

  /** `requestSomeoneIsHome()`: occupancy is always reported as true. */
  function RequestSomeoneIsHome(): (e: CommEvent)
    ensures e == SomeoneIsHomeUpdate(true)
  {
    SomeoneIsHomeStatusUpdate(true)
  }

  /** The outcome of one `requestTemp()`: its return value, the new value of
      `_lastTempTimestamp` (None is the initial `null`), and the
      `temperatureChanged` event it emitted, if any. */
  datatype TempPoll = TempPoll(accepted: bool, lastTimestamp: Option<string>, emitted: Option<CommEvent>)

  /** The last of the lines `data.split('\n')` gives. */
  function LastLine(data: string): string {
    var lines := Split(data);
    lines[|lines| - 1]
  }

  /** The reading `requestTemp()` extracts from the file contents `data`, if
      the file is well formed: the trimmed first line as timestamp and the
      group captured on the last line. It says nothing about de-duplication. */
  function Reading(data: string): (r: Option<(string, string)>)
    ensures r.None? <==> NoNewline(data) || MatchTemperature(LastLine(data)).None?
    ensures r.Some? ==> r.value.0 == Trim(Split(data)[0])
    ensures r.Some? ==> MatchTemperature(LastLine(data)) == Some(r.value.1)
  {
    SplitSingle(data);
    if NoNewline(data) then None
    else
      var m := MatchTemperature(LastLine(data));
      if m.None? then None else Some((Trim(Split(data)[0]), m.value))
  }

  /** `requestTemp()` on file contents `data`, with `last` the timestamp of
      the last accepted reading. */
  function RequestTemp(data: string, last: Option<string>): (r: TempPoll)
    ensures r.accepted <==> r.emitted.Some?
    ensures !r.accepted ==> r.lastTimestamp == last
    ensures r.accepted <==> Reading(data).Some? && last != Some(Reading(data).value.0)
    ensures r.accepted ==> r.lastTimestamp == Some(Reading(data).value.0)
    ensures r.accepted ==> r.emitted == Some(TemperatureChanged(ParseFloat(Reading(data).value.1), Reading(data).value.0))
  {
    var lines := Split(data);
    if |lines| < 2 then TempPoll(false, last, None)
    else
      var timestamp := Trim(lines[0]);
      if last == Some(timestamp) then TempPoll(false, last, None)
      else
        match MatchTemperature(lines[|lines| - 1])
        case None => TempPoll(false, last, None)
        case Some(group) =>
          var temp := ParseFloat(group);
          TempPoll(true, Some(timestamp), Some(TemperatureUpdate(Number(temp), timestamp)))
  }

  /** Reading the same file twice yields at most one reading: whatever the
      first call did, the second one, given the timestamp it left behind,
      returns false and emits nothing. */
  lemma RequestTempDeduplicates(data: string, last: Option<string>)
    ensures !RequestTemp(data, RequestTemp(data, last).lastTimestamp).accepted
  {
  }

  /** A file that the first poll accepts is accepted once and then refused:
      true, then false. */
  lemma RequestTempTrueThenFalse(data: string)
    requires Reading(data).Some?
    ensures RequestTemp(data, None).accepted
    ensures !RequestTemp(data, RequestTemp(data, None).lastTimestamp).accepted
  {
    RequestTempDeduplicates(data, None);
  }

  /** A file without a line break is refused and changes nothing. */
  lemma SingleLineRejected(data: string, last: Option<string>)
    requires NoNewline(data)
    ensures RequestTemp(data, last) == TempPoll(false, last, None)
  {
    SplitSingle(data);
  }

  /** A file that ends in a line break has an empty last line, on which the
      pattern cannot match: it is refused and changes nothing. */
  lemma TrailingNewlineRejected(data: string, last: Option<string>)
    requires |data| > 0 && data[|data| - 1] == '\n'
    ensures RequestTemp(data, last) == TempPoll(false, last, None)
  {
    SplitTrailingNewline(data);
    ShortLineNoMatch(LastLine(data));
  }

  /** A well-formed file with a new timestamp is accepted: the timestamp is
      stored and the parsed group is emitted with it. */
  lemma ReadingAccepted(data: string, last: Option<string>, stamp: string, group: string)
    requires Reading(data) == Some((stamp, group)) && last != Some(stamp)
    ensures RequestTemp(data, last) == TempPoll(true, Some(stamp), Some(TemperatureChanged(ParseFloat(group), stamp)))
  {
  }

  /** A file of two or more lines: it yields a reading exactly when the
      pattern matches its last line, and the reading is the trimmed first
      line with the group captured there. */
  lemma ReadingOfLines(lines: seq<string>)
    requires |lines| >= 2
    requires forall i | 0 <= i < |lines| :: NoNewline(lines[i])
    ensures Reading(Join(lines)).None? <==> MatchTemperature(lines[|lines| - 1]).None?
    ensures Reading(Join(lines)).Some? ==>
      Reading(Join(lines)).value == (Trim(lines[0]), MatchTemperature(lines[|lines| - 1]).value)
  {
    var data := Join(lines);
    assert Split(data) == lines by {
      SplitJoin(lines);
    }
    assert !NoNewline(data) by {
      SplitSingle(data);
    }
  }

  /** A two-line file: the timestamp line and the reading line. */
  lemma ReadingOfTwoLines(stamp: string, line: string, group: string)
    requires NoNewline(stamp) && NoNewline(line)
    requires MatchTemperature(line) == Some(group)
    ensures Reading(stamp + "\n" + line) == Some((Trim(stamp), group))
  {
    var lines := [stamp, line];
    assert Join(lines) == stamp + "\n" + line by {
      assert lines[1..] == [line];
    }
    ReadingOfLines(lines);
  }

  /** The literal text followed by digits and other non-newline characters
      holds no line break. */
  lemma ReadingLineNoNewline(x: string, y: string)
    requires NoNewline(x) && NoNewline(y)
    ensures NoNewline(Prefix + (x + y))
  {
    var line := Prefix + (x + y);
    forall i | 0 <= i < |line|
      ensures line[i] != '\n'
    {
      if i >= |Prefix| + |x| {
        assert line[i] == y[i - |Prefix| - |x|];
      } else if i >= |Prefix| {
        assert line[i] == x[i - |Prefix|];
      }
    }
  }

  /** A run of digits holds no line break. */
  lemma DigitsNoNewline(a: string)
    requires AllDigits(a)
    ensures NoNewline(a)
  {
    forall i | 0 <= i < |a|
      ensures a[i] != '\n'
    {
      assert IsDigit(a[i]);
    }
  }

  /** `.b` and `-a` hold no line break when `a` and `b` are digits. */
  lemma SignedDigitsNoNewline(c: char, a: string)
    requires c != '\n' && AllDigits(a)
    ensures NoNewline([c] + a)
  {
    DigitsNoNewline(a);
    assert forall i | 1 <= i < |a| + 1 :: ([c] + a)[i] == a[i - 1];
  }

  /** A timestamp line followed by `Temperature = a.b` reads as that
      timestamp and the group `a.b`. */
  lemma DecimalFileReading(stamp: string, a: string, b: string)
    requires NoNewline(stamp) && AllDigits(a) && AllDigits(b)
    ensures Reading(stamp + "\n" + (Prefix + (a + ("." + b)))) == Some((Trim(stamp), a + ("." + b)))
  {
    var group := a + ("." + b);
    DigitsNoNewline(a);
    SignedDigitsNoNewline('.', b);
    ReadingLineNoNewline(a, "." + b);
    CaptureDecimal(a, b, "");
    assert group + "" == group;
    ReadingOfTwoLines(stamp, Prefix + group, group);
  }

  /** A timestamp line followed by `Temperature = a.b` is accepted when the
      timestamp is new, and the reading is the decimal `a.b`. */
  lemma DecimalReadingAccepted(stamp: string, a: string, b: string, last: Option<string>)
    requires NoNewline(stamp) && last != Some(Trim(stamp))
    requires AllDigits(a) && AllDigits(b) && |a| + |b| > 0
    ensures RequestTemp(stamp + "\n" + (Prefix + (a + ("." + b))), last)
      == TempPoll(true, Some(Trim(stamp)), Some(TemperatureChanged(Finite(DigitsValue(a) + FractionValue(b)), Trim(stamp))))
  {
    DecimalFileReading(stamp, a, b);
    ParseFloatOfDecimalText(a, b);
    ReadingAccepted(stamp + "\n" + (Prefix + (a + ("." + b))), last, Trim(stamp), a + ("." + b));
  }

  /** `Temperature = -a.b` reads as the group `-a`. */
  lemma NegativeFileReading(stamp: string, a: string, b: string)
    requires NoNewline(stamp) && AllDigits(a) && AllDigits(b)
    ensures Reading(stamp + "\n" + (Prefix + (("-" + a) + ("." + b)))) == Some((Trim(stamp), "-" + a))
  {
    SignedDigitsNoNewline('-', a);
    SignedDigitsNoNewline('.', b);
    ReadingLineNoNewline("-" + a, "." + b);
    CaptureNegative(a, "." + b);
    ReadingOfTwoLines(stamp, Prefix + (("-" + a) + ("." + b)), "-" + a);
  }

  /** A reading below zero loses its decimal places: `Temperature = -a.b` is
      accepted as the integer -a, because the unescaped `.` of the pattern
      takes the minus sign and the second digit run stops at the decimal point. */
  lemma NegativeReadingTruncated(stamp: string, a: string, b: string, last: Option<string>)
    requires NoNewline(stamp) && last != Some(Trim(stamp))
    requires |a| > 0 && AllDigits(a) && AllDigits(b)
    ensures RequestTemp(stamp + "\n" + (Prefix + (("-" + a) + ("." + b))), last)
      == TempPoll(true, Some(Trim(stamp)), Some(TemperatureChanged(Finite(-DigitsValue(a)), Trim(stamp))))
  {
    NegativeFileReading(stamp, a, b);
    ParseFloatOfNegativeText(a);
    ReadingAccepted(stamp + "\n" + (Prefix + (("-" + a) + ("." + b))), last, Trim(stamp), "-" + a);
  }
}

=== FILE: communication_interface.dfy ===
/**
 The event side of CommunicationInterface.js: the three events a transport
 emits towards the thermostat, how a temperature value is normalised on the
 way, and the default `requestTemp`.
 */
module CommunicationInterface {
  import opened JsValues
  import opened NumberParsing

  /** A `Date`, represented by the text it was constructed from (or the clock
      reading it was taken at); Date parsing itself is not modelled. */
  type Instant = string

  /** The events of the interface: `heatingStateChanged`, `temperatureChanged`
      and `someoneIsHomeUpdate`, with their arguments. */
  datatype CommEvent =
    | HeatingStateChanged(on: bool)
    | TemperatureChanged(temp: Num, lastUpdate: Instant)
    | SomeoneIsHomeUpdate(home: bool)

  /** `_heatingStateUpdate(state)`: the state is forwarded unchanged. */
  function HeatingStateUpdate(state: bool): (e: CommEvent)
    ensures e.HeatingStateChanged? && e.on == state
  {
    HeatingStateChanged(state)
  }

  /** `_someoneIsHomeStatusUpdate(state)`: the state is forwarded unchanged. */
  function SomeoneIsHomeStatusUpdate(state: bool): (e: CommEvent)
    ensures e.SomeoneIsHomeUpdate? && e.home == state
  {
    SomeoneIsHomeUpdate(state)
  }

  /** `_temperatureUpdate(temp, lastUpdate)`: a number is forwarded as it is,
      anything else goes through `parseFloat` and is emitted whatever that
      gives, NaN included; the timestamp is forwarded unchanged. */
  function TemperatureUpdate(temp: JsValue, lastUpdate: Instant): (e: CommEvent)
    ensures e.TemperatureChanged? && e.lastUpdate == lastUpdate
    ensures temp.Number? ==> e.temp == temp.n
    ensures !temp.Number? ==> e.temp == ParseFloat(ToText(temp))
  {
    var retTemp := if temp.Number? then temp.n else ParseFloat(ToText(temp));
    TemperatureChanged(retTemp, lastUpdate)
  }

  /** A reading that is not a number, and whose text holds no decimal
      literal, is still emitted, as NaN: the interface rejects nothing. */
  lemma UnreadableTemperatureIsEmitted(v: JsValue, lastUpdate: Instant)
    requires !v.Number? && Lex(ToText(v)).None?
    ensures TemperatureUpdate(v, lastUpdate) == TemperatureChanged(NaN, lastUpdate)
  {
  }

  /** `null`, `undefined` and the booleans hold no decimal literal, so each
      is emitted as NaN. */
  lemma NonNumericValuesAreEmittedAsNaN(v: JsValue, lastUpdate: Instant)
    requires v.Null? || v.Undefined? || v.Bool?
    ensures TemperatureUpdate(v, lastUpdate) == TemperatureChanged(NaN, lastUpdate)
  {
    var text := ToText(v);
    assert |text| > 0 && 'a' <= text[0] <= 'z';
    NoLiteralAtStart(text);
    UnreadableTemperatureIsEmitted(v, lastUpdate);
  }

  /** A string holding a decimal literal, possibly after blanks, is emitted
      as the number it spells. */
  lemma TextTemperatureIsParsed(w: string, a: string, b: string, lastUpdate: Instant)
    requires AllWhiteSpace(w) && AllDigits(a) && AllDigits(b) && |a| + |b| > 0
    ensures TemperatureUpdate(Str(w + (a + ("." + b))), lastUpdate)
      == TemperatureChanged(Finite(DigitsValue(a) + FractionValue(b)), lastUpdate)
  {
    var text := w + (a + ("." + b));
    assert ToText(Str(text)) == text;
    var e := TemperatureUpdate(Str(text), lastUpdate);
    assert e.temp == ParseFloat(text);
    ParseFloatOfPaddedDecimal(w, a, b);
  }

  /** The default `requestTemp` reports 20 degrees, stamped with the clock reading `now`. */
  function DefaultRequestTemp(now: Instant): (e: CommEvent)
    ensures e == TemperatureChanged(Finite(20.0), now)
  {
    TemperatureUpdate(Number(Finite(20.0)), now)
  }
}

=== FILE: control_state.dfy ===
/**
 The thermostat's state record, the three event handlers that write it, and
 the side effects an evaluation can have. Shared by thermostat.js and its
 older variant Thermostat.js, whose state and handlers write the same fields.
 */
module ControlState {
  import opened Wrappers
  import opened JsValues
  import opened CommunicationInterface

  /** The `heatingOn` field: `null` until the relay has reported, then the
      reported state. */
  datatype Relay = Unknown | Known(on: bool)

  /** `this.state`. The temperature and the relay state are `null`
      (None / Unknown) until their first event; a temperature that arrived
      is whatever number the event carried, NaN included. */
  datatype State = State(
    currentTemperature: Option<Num>,
    desiredTemperature: real,
    lastTemperatureUpdate: Option<Instant>,
    currentTemperatureProgramName: Option<string>,
    heatingOn: Relay,
    someoneIsHome: bool)

  /** What the configuration file and the schedule package give when an
      evaluation consults them (`loadConfig` then `getProgram`): the active
      program and the thresholds of the configuration as loaded at that
      moment, or an exception. The package itself is not modelled. */
  datatype Schedule =
    | Program(programName: string, temperature: real, lowThreshold: real, highThreshold: real)
    | Throws

  /** A side effect of the thermostat: a relay command
      (`comm.toggleHeating`), a state log (`logState`, with the state it
      writes), or the delayed `comm.closeConnections()` of run-once mode. */
  datatype Effect =
    | SwitchHeating(on: bool)
    | LogState(snapshot: State)
    | CloseConnections

  /** The number of relay commands among `effects`. */
  function CountSwitches(effects: seq<Effect>): (n: nat)
    ensures n <= |effects|
  {
    if |effects| == 0 then 0
    else (if effects[0].SwitchHeating? then 1 else 0) + CountSwitches(effects[1..])
  }

  /** Relay commands are counted across a concatenation of effect lists. */
  lemma {:induction false} CountSwitchesAppend(a: seq<Effect>, b: seq<Effect>)
    ensures CountSwitches(a + b) == CountSwitches(a) + CountSwitches(b)
    decreases |a|
  {
    if |a| == 0 {
      assert a + b == b;
    } else {
      assert (a + b)[1..] == a[1..] + b;
      CountSwitchesAppend(a[1..], b);
    }
  }

  /** The relay commands among `effects`, in order. */
  function Commands(effects: seq<Effect>): (c: seq<bool>)
    ensures |c| == CountSwitches(effects)
    ensures forall i | 0 <= i < |c| :: SwitchHeating(c[i]) in effects
  {
    if |effects| == 0 then []
    else
      var rest := Commands(effects[1..]);
      assert forall i | 0 <= i < |rest| :: SwitchHeating(rest[i]) in effects by {
        forall i | 0 <= i < |rest| ensures SwitchHeating(rest[i]) in effects {
          var j :| 0 <= j < |effects[1..]| && effects[1..][j] == SwitchHeating(rest[i]);
          assert effects[j + 1] == SwitchHeating(rest[i]);
        }
      }
      match effects[0]
      case SwitchHeating(on) => [on] + rest
      case _ => rest
  }

  /** Commands are collected across a concatenation of effect lists. */
  lemma {:induction false} CommandsAppend(a: seq<Effect>, b: seq<Effect>)
    ensures Commands(a + b) == Commands(a) + Commands(b)
    decreases |a|
  {
    if |a| == 0 {
      assert a + b == b;
    } else {
      assert (a + b)[1..] == a[1..] + b;
      CommandsAppend(a[1..], b);
    }
  }

  /** The handlers of `heatingStateChanged`, `temperatureChanged` and
      `someoneIsHomeUpdate`: each writes its own fields and nothing else. */
  function ApplyEvent(s: State, e: CommEvent): (t: State)
    ensures t.heatingOn == (if e.HeatingStateChanged? then Known(e.on) else s.heatingOn)
    ensures t.currentTemperature == (if e.TemperatureChanged? then Some(e.temp) else s.currentTemperature)
    ensures t.lastTemperatureUpdate == (if e.TemperatureChanged? then Some(e.lastUpdate) else s.lastTemperatureUpdate)
    ensures t.someoneIsHome == (if e.SomeoneIsHomeUpdate? then e.home else s.someoneIsHome)
    ensures t.desiredTemperature == s.desiredTemperature
    ensures t.currentTemperatureProgramName == s.currentTemperatureProgramName
  {
    match e
    case HeatingStateChanged(on) => s.(heatingOn := Known(on))
    case TemperatureChanged(temp, lastUpdate) => s.(currentTemperature := Some(temp), lastTemperatureUpdate := Some(lastUpdate))
    case SomeoneIsHomeUpdate(home) => s.(someoneIsHome := home)
  }

  /** Once the relay has reported, its state is never forgotten: no event
      sets `heatingOn` back to `null`. */
  lemma ApplyEventKeepsRelayKnown(s: State, e: CommEvent)
    requires s.heatingOn.Known?
    ensures ApplyEvent(s, e).heatingOn.Known?
  {
  }

  /** Delivering the same event twice is the same as delivering it once. */
  lemma ApplyEventIdempotent(s: State, e: CommEvent)
    ensures ApplyEvent(ApplyEvent(s, e), e) == ApplyEvent(s, e)
  {
  }
}

=== FILE: evaluation.dfy ===
/**
 One run of `keepTemperature`, the body thermostat.js and Thermostat.js share:
 consult the schedule, store the scheduled temperature and program name, stop
 early on a falsy reading, otherwise send at most one relay command and log
 the state. An exception from the schedule is caught and ends the run with
 no command and no log.
 */
module Evaluation {
  import opened Wrappers
  import opened JsValues
  import opened ControlState
  import opened Hysteresis

  /** How the `try` block ended: it ran to `logState`, it took the
      "temperature not yet available" return, or it threw and was caught. */
  datatype Ending = Completed | ReturnedEarly | Caught

  /** The state after the run, its side effects in order, and how it ended. */
  datatype Run = Run(state: State, effects: seq<Effect>, ending: Ending)

  /** `getDesiredTemperature()`: the state with the scheduled temperature and
      program name stored. */
  function WithProgram(s: State, name: string, temperature: real): (t: State)
    ensures t.desiredTemperature == temperature && t.currentTemperatureProgramName == Some(name)
    ensures t.currentTemperature == s.currentTemperature && t.lastTemperatureUpdate == s.lastTemperatureUpdate
    ensures t.heatingOn == s.heatingOn && t.someoneIsHome == s.someoneIsHome
  {
    s.(desiredTemperature := temperature, currentTemperatureProgramName := Some(name))
  }

  /** `keepTemperature()` with the schedule as it answers at this moment. */
  function KeepTemperature(s: State, schedule: Schedule): (r: Run)
    ensures schedule.Throws? ==> r == Run(s, [], Caught)
    ensures schedule.Program? ==> r.state == WithProgram(s, schedule.programName, schedule.temperature)
    ensures r.ending == ReturnedEarly <==> schedule.Program? && !Available(s.currentTemperature)
    ensures r.ending == Completed <==> schedule.Program? && Available(s.currentTemperature)
    ensures r.ending != Completed ==> r.effects == []
    ensures r.ending == Completed ==> |r.effects| >= 1 && r.effects[|r.effects| - 1] == LogState(r.state)
    ensures |r.effects| == CountSwitches(r.effects) + (if r.ending == Completed then 1 else 0)
    ensures CountSwitches(r.effects) <= 1
    ensures SwitchHeating(true) in r.effects <==> (schedule.Program? && Available(s.currentTemperature)
      && TooCold(s.currentTemperature.value, s.heatingOn, schedule.temperature, schedule.lowThreshold))
    ensures SwitchHeating(false) in r.effects <==> (schedule.Program? && Available(s.currentTemperature)
      && TooWarm(s.currentTemperature.value, s.heatingOn, schedule.temperature, schedule.highThreshold))
  {
    match schedule
    case Throws => Run(s, [], Caught)
    case Program(name, temperature, low, high) =>
      var t := WithProgram(s, name, temperature);
      match Decide(t.currentTemperature, t.heatingOn, temperature, low, high)
      case TemperatureUnavailable => Run(t, [], ReturnedEarly)
      case Switch(on) => Run(t, [SwitchHeating(on), LogState(t)], Completed)
      case Hold => Run(t, [LogState(t)], Completed)
  }

  /** A run changes only the two fields the schedule provides: readings,
      relay state and occupancy are left as they were. */
  lemma KeepTemperatureKeepsReadings(s: State, schedule: Schedule)
    ensures KeepTemperature(s, schedule).state.currentTemperature == s.currentTemperature
    ensures KeepTemperature(s, schedule).state.lastTemperatureUpdate == s.lastTemperatureUpdate
    ensures KeepTemperature(s, schedule).state.heatingOn == s.heatingOn
    ensures KeepTemperature(s, schedule).state.someoneIsHome == s.someoneIsHome
  {
  }

  /** The scheduled temperature is stored even when the run then stops for
      want of a reading, so the state shows a target no decision was made for. */
  lemma ProgramStoredBeforeEarlyReturn(s: State, name: string, temperature: real, low: real, high: real)
    requires !Available(s.currentTemperature)
    ensures KeepTemperature(s, Program(name, temperature, low, high)).ending == ReturnedEarly
    ensures KeepTemperature(s, Program(name, temperature, low, high)).state.desiredTemperature == temperature
  {
  }

  /** Occupancy plays no part: two states that differ only in `someoneIsHome`
      get the same commands. */
  lemma OccupancyIgnored(s: State, home: bool, schedule: Schedule)
    ensures CountSwitches(KeepTemperature(s, schedule).effects) == CountSwitches(KeepTemperature(s.(someoneIsHome := home), schedule).effects)
    ensures forall on: bool :: (SwitchHeating(on) in KeepTemperature(s, schedule).effects
      <==> SwitchHeating(on) in KeepTemperature(s.(someoneIsHome := home), schedule).effects)
  {
  }
}

=== FILE: hysteresis.dfy ===
/**
 The two-threshold on/off rule of `keepTemperature`, shared by thermostat.js
 and Thermostat.js: with `desired` the scheduled temperature, switch on when
 the relay is not on and the room is strictly below `desired - low`, switch
 off when the relay is on and the room is strictly above `desired + high`,
 and otherwise leave the relay alone. A falsy reading (none, 0 or NaN) stops
 the evaluation before any of this.
 */
module Hysteresis {
  import opened Wrappers
  import opened JsValues
  import opened ControlState

  /** The branch of the if / else-if chain that `keepTemperature` takes. */
  datatype Decision = TemperatureUnavailable | Switch(on: bool) | Hold

  /** `currentTemperature` is truthy: present, not 0 and not NaN. */
  predicate Available(current: Option<Num>) {
    current.Some? && !IsFalsyNum(current.value)
  }

  /** `heatingOn` is truthy; `null` counts as off. */
  predicate IsOn(heating: Relay) {
    heating == Known(true)
  }

  /** The condition of the switch-on branch. */
  predicate TooCold(current: Num, heating: Relay, desired: real, low: real) {
    !IsOn(heating) && LessThan(current, desired - low)
  }

  /** The condition of the switch-off branch. */
  predicate TooWarm(current: Num, heating: Relay, desired: real, high: real) {
    IsOn(heating) && GreaterThan(current, desired + high)
  }

  /** The decision of one evaluation. */
  function Decide(current: Option<Num>, heating: Relay, desired: real, low: real, high: real): (d: Decision)
    ensures d == TemperatureUnavailable <==> !Available(current)
    ensures d == Switch(true) <==> Available(current) && TooCold(current.value, heating, desired, low)
    ensures d == Switch(false) <==> Available(current) && TooWarm(current.value, heating, desired, high)
    ensures d == Hold <==> (Available(current)
      && !TooCold(current.value, heating, desired, low) && !TooWarm(current.value, heating, desired, high))
  {
    if !Available(current) then TemperatureUnavailable
    else if TooCold(current.value, heating, desired, low) then Switch(true)
    else if TooWarm(current.value, heating, desired, high) then Switch(false)
    else Hold
  }

  /** Inside the band, boundaries included, nothing is switched, whatever
      the relay state. */
  lemma DeadBand(c: real, heating: Relay, desired: real, low: real, high: real)
    requires c != 0.0
    requires desired - low <= c <= desired + high
    ensures Decide(Some(Finite(c)), heating, desired, low, high) == Hold
  {
  }

  /** The comparisons are strict: a reading exactly on a threshold gives no command. */
  lemma StrictThresholds(heating: Relay, desired: real, low: real, high: real)
    ensures desired - low != 0.0 ==> Decide(Some(Finite(desired - low)), heating, desired, low, high) != Switch(true)
    ensures desired + high != 0.0 ==> Decide(Some(Finite(desired + high)), heating, desired, low, high) != Switch(false)
  {
  }

  /** A relay that has not reported yet is treated exactly like one that is off. */
  lemma UnknownActsAsOff(current: Option<Num>, desired: real, low: real, high: real)
    ensures Decide(current, Unknown, desired, low, high) == Decide(current, Known(false), desired, low, high)
  {
  }

  /** A relay that is off is never switched off, and one that is on is never
      switched on: every command changes the relay state. */
  lemma CommandsChangeTheRelay(current: Option<Num>, heating: Relay, desired: real, low: real, high: real)
    ensures Decide(current, heating, desired, low, high) == Switch(true) ==> !IsOn(heating)
    ensures Decide(current, heating, desired, low, high) == Switch(false) ==> IsOn(heating)
  {
  }

  /** With a band that is not inverted (`low + high >= 0`), a reading that
      switches the heating on does not switch it off again once the relay
      reports on, and the other way round. */
  lemma NoImmediateReversal(current: Option<Num>, desired: real, low: real, high: real)
    requires low + high >= 0.0
    ensures Decide(current, Known(false), desired, low, high) == Switch(true)
      ==> Decide(current, Known(true), desired, low, high) == Hold
    ensures Decide(current, Known(true), desired, low, high) == Switch(false)
      ==> Decide(current, Known(false), desired, low, high) == Hold
  {
  }

  /** An inverted band (`low + high < 0`) makes the heating oscillate: a
      reading between the two thresholds switches an off relay on and an on
      relay off. */
  lemma InvertedBandOscillates(c: real, desired: real, low: real, high: real)
    requires c != 0.0
    requires desired + high < c < desired - low
    ensures Decide(Some(Finite(c)), Known(false), desired, low, high) == Switch(true)
    ensures Decide(Some(Finite(c)), Known(true), desired, low, high) == Switch(false)
  {
  }

  /** A colder room never turns a switch-on into something else. */
  lemma SwitchOnMonotone(c: real, colder: real, heating: Relay, desired: real, low: real, high: real)
    requires colder <= c && colder != 0.0
    requires Decide(Some(Finite(c)), heating, desired, low, high) == Switch(true)
    ensures Decide(Some(Finite(colder)), heating, desired, low, high) == Switch(true)
  {
  }

  /** A warmer room never turns a switch-off into something else. */
  lemma SwitchOffMonotone(c: real, warmer: real, heating: Relay, desired: real, low: real, high: real)
    requires warmer >= c && warmer != 0.0
    requires Decide(Some(Finite(c)), heating, desired, low, high) == Switch(false)
    ensures Decide(Some(Finite(warmer)), heating, desired, low, high) == Switch(false)
  {
  }

  /** A reading of exactly 0 degrees is taken for "no reading": even a
      freezing room does not switch the heating on. */
  lemma ZeroDegreesIsUnavailable(heating: Relay, desired: real, low: real, high: real)
    ensures Decide(Some(Finite(0.0)), heating, desired, low, high) == TemperatureUnavailable
  {
  }
}

=== FILE: js_values.dfy ===
/**
 JavaScript values, number comparisons and the character classes that the
 thermostat's string handling (`trim`, `parseFloat`, regular expressions)
 relies on.
 */
module JsValues {

  /** A JavaScript number. Finite numbers are exact reals: IEEE-754 rounding
      is not modelled, and -0 is the same value as 0 (both are falsy). */
  datatype Num = Finite(value: real) | NaN | PosInfinity | NegInfinity

  /** The JavaScript values that reach `_temperatureUpdate` and the MQTT
      message handler. An object (a Buffer, a Date, ...) is represented by
      the text its `toString()` returns, which is all `parseFloat` sees. */
  datatype JsValue =
    | Null
    | Undefined
    | Bool(b: bool)
    | Number(n: Num)
    | Str(s: string)
    | Object(text: string)

  /** Falsiness of a number in a condition such as `!x`: 0 and NaN are falsy. */
  predicate IsFalsyNum(n: Num) {
    n == NaN || n == Finite(0.0)
  }

  /** `a < b` for a finite `b`; every comparison with NaN is false. */
  predicate LessThan(a: Num, b: real) {
    match a
    case Finite(x) => x < b
    case NegInfinity => true
    case _ => false
  }

  /** `a > b` for a finite `b`; every comparison with NaN is false. */
  predicate GreaterThan(a: Num, b: real) {
    match a
    case Finite(x) => x > b
    case PosInfinity => true
    case _ => false
  }

  /** `String(v)` for a value that is not a number: the text `parseFloat` reads. */
  function ToText(v: JsValue): string
    requires !v.Number?
  {
    match v
    case Null => "null"
    case Undefined => "undefined"
    case Bool(b) => if b then "true" else "false"
    case Str(s) => s
    case Object(t) => t
  }

  /** `\d` in a regular expression and DecimalDigit in a numeric literal. */
  predicate IsDigit(c: char) {
    '0' <= c <= '9'
  }

  predicate AllDigits(s: string) {
    forall i | 0 <= i < |s| :: IsDigit(s[i])
  }

  /** An ECMAScript LineTerminator: the characters `.` in a regular expression does not match. */
  predicate IsLineTerminator(c: char) {
    c == '\n' || c == '\r' || c == '\U{2028}' || c == '\U{2029}'
  }

  /** An ECMAScript WhiteSpace or LineTerminator: what `trim` strips and `parseFloat` skips. */
  predicate IsWhiteSpace(c: char) {
    || c == '\t' || c == '\U{000B}' || c == '\U{000C}' || c == ' ' || c == '\U{00A0}' || c == '\U{FEFF}'
    || c == '\U{1680}' || ('\U{2000}' <= c <= '\U{200A}') || c == '\U{202F}' || c == '\U{205F}'
    || c == '\U{3000}'
    || IsLineTerminator(c)
  }

  predicate AllWhiteSpace(s: string) {
    forall i | 0 <= i < |s| :: IsWhiteSpace(s[i])
  }
}

=== FILE: legacy_thermostat.dfy ===
/**
 Thermostat.js, the older variant of the thermostat: the relay state starts
 as `false` instead of `null`, the event handlers only store what they are
 told, and only the `keepTemperature` interval evaluates. Its
 `keepTemperature` has the same body as the current one but returns a value:
 `true`, except on the "temperature not yet available" path, which returns
 what `console.error` returns (`undefined`).
 */
module LegacyThermostat {
  import opened Wrappers
  import opened JsValues
  import opened CommunicationInterface
  import opened ControlState
  import opened Hysteresis
  import opened Evaluation
  import Thermostat

  /** The constructor's state: as in thermostat.js, but the relay is taken to be off. */
  const Initial: State := State(None, 14.0, None, None, Known(false), false)

  /** What reaches the old thermostat: an interface event or a tick of the
      `keepTemperature` interval. */
  datatype Event = Received(event: CommEvent) | KeepTemperatureTimer

  /** An event with the answer the schedule would give if consulted. */
  datatype Occurrence = Occurrence(event: Event, schedule: Schedule)

  /** One `keepTemperature()` with its return value (`returnsTrue` is false
      when it returns `undefined`). */
  datatype Evaluated = Evaluated(run: Run, returnsTrue: bool)

  /** `keepTemperature()` of Thermostat.js. */
  function KeepTemperatureReturning(s: State, schedule: Schedule): (r: Evaluated)
    ensures r.run == KeepTemperature(s, schedule)
    ensures !r.returnsTrue <==> schedule.Program? && !Available(s.currentTemperature)
  {
    var run := KeepTemperature(s, schedule);
    Evaluated(run, run.ending != ReturnedEarly)
  }

  /** The return value does not report failure: a run whose schedule threw,
      which sent nothing and logged nothing, still returns true. */
  lemma CaughtStillReturnsTrue(s: State)
    ensures KeepTemperatureReturning(s, Throws).returnsTrue
    ensures KeepTemperatureReturning(s, Throws).run.effects == []
  {
  }

  /** One event, handled as Thermostat.js handles it. */
  function Step(s: State, o: Occurrence): (r: Thermostat.Outcome)
    ensures o.event.Received? ==> r == Thermostat.Outcome(ApplyEvent(s, o.event.event), [])
    ensures o.event.KeepTemperatureTimer? ==> r.state == KeepTemperature(s, o.schedule).state
    ensures o.event.KeepTemperatureTimer? ==> r.effects == KeepTemperature(s, o.schedule).effects
    ensures CountSwitches(r.effects) <= 1
  {
    match o.event
    case Received(e) => Thermostat.Outcome(ApplyEvent(s, e), [])
    case KeepTemperatureTimer =>
      var run := KeepTemperatureReturning(s, o.schedule).run;
      Thermostat.Outcome(run.state, run.effects)
  }

  /** The number of timer ticks among the occurrences. */
  function Ticks(occurrences: seq<Occurrence>): (n: nat)
    ensures n <= |occurrences|
  {
    if |occurrences| == 0 then 0
    else (if occurrences[0].event.KeepTemperatureTimer? then 1 else 0) + Ticks(occurrences[1..])
  }

  /** The events handled one after the other, effects collected in order:
      at most one relay command per timer tick. */
  function Run(s: State, occurrences: seq<Occurrence>): (r: Thermostat.Outcome)
    ensures CountSwitches(r.effects) <= Ticks(occurrences)
    decreases |occurrences|
  {
    if |occurrences| == 0 then Thermostat.Outcome(s, [])
    else
      var first := Step(s, occurrences[0]);
      var rest := Run(first.state, occurrences[1..]);
      CountSwitchesAppend(first.effects, rest.effects);
      Thermostat.Outcome(rest.state, first.effects + rest.effects)
  }

  /** The same occurrence as thermostat.js receives it. */
  function Current(o: Occurrence): (c: Thermostat.Occurrence)
    ensures c.schedule == o.schedule
    ensures c.event.Received? <==> o.event.Received?
  {
    match o.event
    case Received(e) => Thermostat.Occurrence(Thermostat.Received(e), o.schedule)
    case KeepTemperatureTimer => Thermostat.Occurrence(Thermostat.KeepTemperatureTimer, o.schedule)
  }

  /** Per event, the old thermostat behaves as thermostat.js in continuous mode. */
  lemma StepIsContinuousMode(s: State, o: Occurrence)
    ensures Step(s, o) == Thermostat.Step(false, s, Current(o))
  {
  }

  /** The two states differ at most in a relay the new thermostat does not
      know yet and the old one takes to be off. */
  predicate Agree(legacy: State, current: State) {
    legacy == current || (current.heatingOn == Unknown && legacy == current.(heatingOn := Known(false)))
  }

  /** One event keeps the two thermostats in agreement and sends the same commands. */
  lemma StepAgrees(legacy: State, current: State, o: Occurrence)
    requires Agree(legacy, current)
    ensures Agree(Step(legacy, o).state, Thermostat.Step(false, current, Current(o)).state)
    ensures Commands(Step(legacy, o).effects) == Commands(Thermostat.Step(false, current, Current(o)).effects)
  {
    if o.event.KeepTemperatureTimer? && o.schedule.Program? {
      var sc := o.schedule;
      UnknownActsAsOff(current.currentTemperature, sc.temperature, sc.lowThreshold, sc.highThreshold);
    }
  }

  /** Started from their constructors' states and given the same events,
      the old thermostat and thermostat.js in continuous mode send exactly
      the same relay commands: the old `false` and the new `null` are
      treated alike. */
  lemma {:induction false} SameCommandsAsContinuousMode(legacy: State, current: State, occurrences: seq<Occurrence>)
    requires Agree(legacy, current)
    ensures Commands(Run(legacy, occurrences).effects)
      == Commands(Thermostat.Run(false, current, seq(|occurrences|, i requires 0 <= i < |occurrences| => Current(occurrences[i]))).effects)
    decreases |occurrences|
  {
    var translated := seq(|occurrences|, i requires 0 <= i < |occurrences| => Current(occurrences[i]));
    if |occurrences| > 0 {
      var a := Step(legacy, occurrences[0]);
      var b := Thermostat.Step(false, current, translated[0]);
      StepAgrees(legacy, current, occurrences[0]);
      SameCommandsAsContinuousMode(a.state, b.state, occurrences[1..]);
      assert translated[1..] == seq(|occurrences[1..]|, i requires 0 <= i < |occurrences[1..]| => Current(occurrences[1..][i]));
      CommandsAppend(a.effects, Run(a.state, occurrences[1..]).effects);
      CommandsAppend(b.effects, Thermostat.Run(false, b.state, translated[1..]).effects);
    }
  }

  /** The constructors' states agree. */
  lemma InitialStatesAgree()
    ensures Agree(Initial, Thermostat.Initial)
  {
  }

  /** The event handlers never evaluate: only the timer sends commands. */
  lemma {:induction false} OnlyTheTimerSwitches(s: State, occurrences: seq<Occurrence>)
    requires forall i | 0 <= i < |occurrences| :: occurrences[i].event.Received?
    ensures Run(s, occurrences).effects == []
    ensures Run(s, occurrences).state.desiredTemperature == s.desiredTemperature
    decreases |occurrences|
  {
    if |occurrences| > 0 {
      var first := Step(s, occurrences[0]);
      assert occurrences[1..][0..] == occurrences[1..];
      OnlyTheTimerSwitches(first.state, occurrences[1..]);
    }
  }

  /** Because the relay starts as off, the first tick heats a cold room
      before the relay has ever reported its state. */
  lemma HeatsBeforeRelayReport(c: real, name: string, temperature: real, low: real, high: real)
    requires c != 0.0 && c < temperature - low
    ensures Step(Initial.(currentTemperature := Some(Finite(c))),
      Occurrence(KeepTemperatureTimer, Program(name, temperature, low, high))).effects[0] == SwitchHeating(true)
  {
  }
}

=== FILE: number_parsing.dfy ===
/**
 JavaScript's global `parseFloat`: skip leading white space, then read the
 longest prefix that is a decimal literal (an optional sign, then
 `Infinity`, or digits with an optional fraction and an optional exponent).
 When no such prefix exists the result is NaN. Values are exact reals.

 The reading is split in two: `Lex` finds the literal (string work only)
 and `LiteralValue` computes its value (arithmetic only).
 */
module NumberParsing {
  import opened JsValues
  import opened Wrappers
  import opened Strings

  /** The longest decimal-literal prefix, taken apart: its sign, the digits
      before and after the decimal point, and the exponent if one follows. */
  datatype Literal =
    | Decimal(negative: bool, integer: string, fraction: string, exponent: int)
    | Infinity(negative: bool)

  predicate WellFormed(lit: Literal) {
    lit.Decimal? ==> AllDigits(lit.integer) && AllDigits(lit.fraction)
  }

  predicate StartsWith(s: string, prefix: string) {
    |prefix| <= |s| && s[..|prefix|] == prefix
  }

  /** The signed exponent of an ExponentPart at the head of `s` (`e` or `E`,
      an optional sign, at least one digit), or 0 when `s` does not start with one. */
  function Exponent(s: string): int {
    if |s| >= 2 && (s[0] == 'e' || s[0] == 'E') then
      var d := if s[1] == '-' || s[1] == '+' then s[2..] else s[1..];
      var n := DigitRun(d);
      if n == 0 then 0
      else if s[1] == '-' then 0 - DigitsNat(d[..n])
      else DigitsNat(d[..n])
    else 0
  }

  /** The unsigned decimal literal at the head of `u` (other than `Infinity`), if any. */
  function UnsignedLiteral(negative: bool, u: string): (r: Option<Literal>)
    ensures r.Some? ==> WellFormed(r.value)
  {
    var k := DigitRun(u);
    var afterInteger := u[k..];
    var hasPoint := |afterInteger| > 0 && afterInteger[0] == '.';
    var fraction := if hasPoint then afterInteger[1..] else "";
    var f := DigitRun(fraction);
    if k == 0 && f == 0 then None
    else
      var rest := if hasPoint then fraction[f..] else afterInteger;
      Some(Decimal(negative, u[..k], fraction[..f], Exponent(rest)))
  }

  /** The literal `parseFloat(s)` reads, or None when it reads none (NaN). */
  function Lex(s: string): (r: Option<Literal>)
    ensures r.Some? ==> WellFormed(r.value)
  {
    var t := s[LeadingWhiteSpace(s)..];
    var negative := |t| > 0 && t[0] == '-';
    var u := if |t| > 0 && (t[0] == '-' || t[0] == '+') then t[1..] else t;
    if StartsWith(u, "Infinity") then Some(Infinity(negative))
    else UnsignedLiteral(negative, u)
  }

  function DigitValue(c: char): real
    requires IsDigit(c)
  {
    (c as int - '0' as int) as real
  }

  /** The value of a run of decimal digits, most significant first. */
  function DigitsValue(s: string): real
    requires AllDigits(s)
  {
    if |s| == 0 then 0.0 else DigitsValue(s[..|s| - 1]) * 10.0 + DigitValue(s[|s| - 1])
  }

  /** The same value as an integer, for exponents. */
  function DigitsNat(s: string): nat
    requires AllDigits(s)
  {
    if |s| == 0 then 0 else DigitsNat(s[..|s| - 1]) * 10 + (s[|s| - 1] as int - '0' as int)
  }

  /** The value of the digits written after a decimal point: always in [0, 1). */
  function FractionValue(s: string): (v: real)
    requires AllDigits(s)
    ensures 0.0 <= v < 1.0
  {
    if |s| == 0 then 0.0 else (DigitValue(s[0]) + FractionValue(s[1..])) / 10.0
  }

  /** `m` times 10 to the power `e`, written with multiplications and
      divisions by ten only. */
  function Scaled(m: real, e: int): real
    decreases if e >= 0 then e else -e
  {
    if e == 0 then m
    else if e > 0 then 10.0 * Scaled(m, e - 1)
    else Scaled(m, e + 1) / 10.0
  }

  function LiteralValue(lit: Literal): Num
    requires WellFormed(lit)
  {
    match lit
    case Infinity(negative) => if negative then NegInfinity else PosInfinity
    case Decimal(negative, integer, fraction, exponent) =>
      var v := Scaled(DigitsValue(integer) + FractionValue(fraction), exponent);
      Finite(if negative then -v else v)
  }

  /** `parseFloat(s)`: NaN exactly when no literal can be read. */
  function ParseFloat(s: string): (r: Num)
    ensures r == NaN <==> Lex(s).None?
    ensures Lex(s).Some? && Lex(s).value.Decimal? ==> r.Finite?
  {
    match Lex(s)
    case None => NaN
    case Some(lit) => LiteralValue(lit)
  }

  lemma {:induction false} LeadingWhiteSpaceOf(w: string, s: string)
    requires AllWhiteSpace(w)
    requires |s| == 0 || !IsWhiteSpace(s[0])
    ensures LeadingWhiteSpace(w + s) == |w|
    decreases |w|
  {
    if |w| > 0 {
      assert (w + s)[1..] == w[1..] + s;
      LeadingWhiteSpaceOf(w[1..], s);
    } else {
      assert w + s == s;
    }
  }

  /** Leading white space does not change what `parseFloat` reads. */
  lemma ParseFloatSkipsWhiteSpace(w: string, s: string)
    requires AllWhiteSpace(w)
    requires |s| == 0 || !IsWhiteSpace(s[0])
    ensures Lex(w + s) == Lex(s)
    ensures ParseFloat(w + s) == ParseFloat(s)
  {
    LeadingWhiteSpaceOf(w, s);
    LeadingWhiteSpaceOf("", s);
    ConcatSlices(w, s);
    assert "" + s == s;
    assert s[0..] == s;
  }

  /** Text that starts with a digit or a decimal point is read without a sign. */
  lemma LexUnsigned(s: string)
    requires |s| > 0 && (IsDigit(s[0]) || s[0] == '.')
    ensures Lex(s) == UnsignedLiteral(false, s)
  {
    assert LeadingWhiteSpace(s) == 0;
    assert s[0..] == s;
    assert |s| >= 8 ==> s[..8][0] == s[0];
  }

  /** A run of digits followed by anything that cannot continue a decimal
      literal is an integer literal, with whatever sign came before it. */
  lemma UnsignedInteger(negative: bool, a: string, rest: string)
    requires |a| > 0 && AllDigits(a)
    requires |rest| == 0 || (!IsDigit(rest[0]) && rest[0] != '.' && rest[0] != 'e' && rest[0] != 'E')
    ensures UnsignedLiteral(negative, a + rest) == Some(Decimal(negative, a, "", 0))
  {
    var s := a + rest;
    assert DigitRun(s) == |a| && s[..|a|] == a && s[|a|..] == rest by {
      DigitRunOfDigits(a, rest);
      ConcatSlices(a, rest);
    }
    assert DigitRun("") == 0 && ""[..0] == "";
    assert Exponent(rest) == 0;
  }

  /** A run of digits followed by anything that cannot continue a decimal
      literal is read as an integer literal. */
  lemma LexInteger(a: string, rest: string)
    requires |a| > 0 && AllDigits(a)
    requires |rest| == 0 || (!IsDigit(rest[0]) && rest[0] != '.' && rest[0] != 'e' && rest[0] != 'E')
    ensures Lex(a + rest) == Some(Decimal(false, a, "", 0))
  {
    UnsignedInteger(false, a, rest);
    LexUnsigned(a + rest);
  }

  /** A minus sign directly before an unsigned literal makes it negative. */
  lemma LexNegative(s: string)
    requires |s| > 0 && (IsDigit(s[0]) || s[0] == '.')
    ensures Lex("-" + s) == UnsignedLiteral(true, s)
  {
    var t := "-" + s;
    assert LeadingWhiteSpace(t) == 0;
    assert t[0..] == t && t[0] == '-' && t[1..] == s;
    assert |s| >= 8 ==> s[..8][0] == s[0];
  }

  /** `parseFloat` gives the value of the literal it reads. */
  lemma ParseFloatOfLex(s: string, lit: Literal)
    requires Lex(s) == Some(lit)
    ensures WellFormed(lit) && ParseFloat(s) == LiteralValue(lit)
  {
  }

  /** An integer literal without exponent has the value its digits spell, with its sign. */
  lemma IntegerValue(negative: bool, a: string)
    requires AllDigits(a)
    ensures LiteralValue(Decimal(negative, a, "", 0)) == Finite(if negative then -DigitsValue(a) else DigitsValue(a))
  {
    assert FractionValue("") == 0.0;
  }

  /** A minus sign and a run of digits, followed by anything that cannot
      continue a decimal literal, is read as a negative integer literal. */
  lemma LexNegativeInteger(a: string, rest: string)
    requires |a| > 0 && AllDigits(a)
    requires |rest| == 0 || (!IsDigit(rest[0]) && rest[0] != '.' && rest[0] != 'e' && rest[0] != 'E')
    ensures Lex("-" + (a + rest)) == Some(Decimal(true, a, "", 0))
  {
    UnsignedInteger(true, a, rest);
    assert (a + rest)[0] == a[0];
    LexNegative(a + rest);
  }

  /** A minus sign and a run of digits, followed by anything that cannot
      continue a decimal literal, reads as the negated integer. */
  lemma ParseFloatOfNegativeInteger(a: string, rest: string)
    requires |a| > 0 && AllDigits(a)
    requires |rest| == 0 || (!IsDigit(rest[0]) && rest[0] != '.' && rest[0] != 'e' && rest[0] != 'E')
    ensures ParseFloat("-" + (a + rest)) == Finite(-DigitsValue(a))
  {
    LexNegativeInteger(a, rest);
    ParseFloatOfLex("-" + (a + rest), Decimal(true, a, "", 0));
    IntegerValue(true, a);
  }

  /** `a.b` for digit runs `a` and `b`, not both empty, followed by anything
      that cannot continue the literal, is read as that decimal literal. */
  lemma LexDecimal(a: string, b: string, rest: string)
    requires AllDigits(a) && AllDigits(b) && |a| + |b| > 0
    requires |rest| == 0 || (!IsDigit(rest[0]) && rest[0] != 'e' && rest[0] != 'E')
    ensures Lex(a + ("." + (b + rest))) == Some(Decimal(false, a, b, 0))
  {
    var tail := b + rest;
    var afterInteger := "." + tail;
    var u := a + afterInteger;
    assert DigitRun(u) == |a| && u[..|a|] == a && u[|a|..] == afterInteger by {
      DigitRunOfDigits(a, afterInteger);
      ConcatSlices(a, afterInteger);
    }
    assert afterInteger[0] == '.' && afterInteger[1..] == tail by {
      ConcatSlices(".", tail);
    }
    assert DigitRun(tail) == |b| && tail[..|b|] == b && tail[|b|..] == rest by {
      DigitRunOfDigits(b, rest);
      ConcatSlices(b, rest);
    }
    assert Exponent(rest) == 0;
    assert u[0] == (if |a| > 0 then a[0] else '.');
    LexUnsigned(u);
  }

  lemma DecimalValue(a: string, b: string)
    requires AllDigits(a) && AllDigits(b)
    ensures LiteralValue(Decimal(false, a, b, 0)) == Finite(DigitsValue(a) + FractionValue(b))
  {
  }

  /** A run of digits followed by anything that cannot continue a decimal
      literal reads as the integer the digits spell. */
  lemma ParseFloatOfInteger(a: string, rest: string)
    requires |a| > 0 && AllDigits(a)
    requires |rest| == 0 || (!IsDigit(rest[0]) && rest[0] != '.' && rest[0] != 'e' && rest[0] != 'E')
    ensures ParseFloat(a + rest) == Finite(DigitsValue(a))
  {
    LexInteger(a, rest);
    ParseFloatOfLex(a + rest, Decimal(false, a, "", 0));
    IntegerValue(false, a);
  }

  /** `a.b` for digit runs `a` and `b`, not both empty, followed by anything
      that cannot continue the literal, reads as the decimal it spells. */
  lemma ParseFloatOfDecimal(a: string, b: string, rest: string)
    requires AllDigits(a) && AllDigits(b) && |a| + |b| > 0
    requires |rest| == 0 || (!IsDigit(rest[0]) && rest[0] != 'e' && rest[0] != 'E')
    ensures ParseFloat(a + ("." + (b + rest))) == Finite(DigitsValue(a) + FractionValue(b))
  {
    LexDecimal(a, b, rest);
    ParseFloatOfLex(a + ("." + (b + rest)), Decimal(false, a, b, 0));
    DecimalValue(a, b);
  }

  /** The text `a.b` on its own reads as the decimal it spells. */
  lemma ParseFloatOfDecimalText(a: string, b: string)
    requires AllDigits(a) && AllDigits(b) && |a| + |b| > 0
    ensures ParseFloat(a + ("." + b)) == Finite(DigitsValue(a) + FractionValue(b))
  {
    assert b + "" == b;
    ParseFloatOfDecimal(a, b, "");
  }

  /** `a.b` after leading white space reads as a + 0.b. */
  lemma ParseFloatOfPaddedDecimal(w: string, a: string, b: string)
    requires AllWhiteSpace(w) && AllDigits(a) && AllDigits(b) && |a| + |b| > 0
    ensures ParseFloat(w + (a + ("." + b))) == Finite(DigitsValue(a) + FractionValue(b))
  {
    var literal := a + ("." + b);
    assert !IsWhiteSpace(literal[0]) by {
      if |a| > 0 {
        assert literal[0] == a[0];
      } else {
        assert literal[0] == '.';
      }
    }
    ParseFloatSkipsWhiteSpace(w, literal);
    ParseFloatOfDecimalText(a, b);
  }

  /** The text `-a` on its own reads as the negated integer. */
  lemma ParseFloatOfNegativeText(a: string)
    requires |a| > 0 && AllDigits(a)
    ensures ParseFloat("-" + a) == Finite(-DigitsValue(a))
  {
    assert a + "" == a;
    ParseFloatOfNegativeInteger(a, "");
  }

  /** Text whose first non-blank character can start neither a number nor
      a sign, `.` or `Infinity` reads as NaN, whatever white space precedes it. */
  lemma ParseFloatNoNumber(w: string, s: string)
    requires AllWhiteSpace(w)
    requires |s| > 0 && !IsWhiteSpace(s[0])
    requires !IsDigit(s[0]) && s[0] != '.' && s[0] != '-' && s[0] != '+' && s[0] != 'I'
    ensures ParseFloat(w + s) == NaN
  {
    ParseFloatSkipsWhiteSpace(w, s);
    NoLiteralAtStart(s);
  }

  /** The unpadded case: a first character that cannot start a literal. */
  lemma NoLiteralAtStart(s: string)
    requires |s| > 0 && !IsWhiteSpace(s[0])
    requires !IsDigit(s[0]) && s[0] != '.' && s[0] != '-' && s[0] != '+' && s[0] != 'I'
    ensures ParseFloat(s) == NaN
  {
    assert LeadingWhiteSpace(s) == 0;
    assert s[0..] == s;
    assert |s| >= 8 ==> s[..8][0] == s[0];
    assert DigitRun(s) == 0;
  }

  /** `parseFloat("21.5")` is 21.5. */
  lemma ParseFloatExample(s: string)
    requires s == "21.5"
    ensures ParseFloat(s) == Finite(21.5)
  {
    var a, b := "21", "5";
    assert AllDigits(a) && AllDigits(b);
    assert DigitsValue(a) == 21.0 by {
      assert a[..1] == "2" && a[..1][..0] == [];
    }
    assert FractionValue(b) == 0.5 by {
      assert b[1..] == [];
    }
    assert s == a + ("." + b);
    ParseFloatOfDecimalText(a, b);
  }
}

=== FILE: process.dfy ===
/**
 The thermostat of thermostat.js wired to the transport of
 config/communication.js: `requestInfo()` polls the sensor file, asks the
 relay for its state and reports occupancy, and the events it emits
 synchronously are handled by the thermostat before the constructor's own
 `tryKeepTemperature()`. The relay's answer arrives later as an MQTT message.
 */
module Process {
  import opened Wrappers
  import opened JsValues
  import opened Strings
  import opened NumberParsing
  import opened CommunicationInterface
  import opened Communication
  import opened ControlState
  import opened Evaluation
  import Thermostat

  /** What one `requestInfo()` does: the outcome of the file poll, the MQTT
      messages published, and the events emitted, in order. */
  datatype InfoRequest = InfoRequest(poll: TempPoll, published: seq<Publish>, events: seq<CommEvent>)

  /** `requestInfo()`: `requestTemp()`, then `requestHeatingState()`, then
      `requestSomeoneIsHome()`. */
  function RequestInfo(params: Params, data: string, last: Option<string>): (r: InfoRequest)
    ensures r.poll == RequestTemp(data, last)
    ensures r.published == [Publish(params.topicInput, "status")]
    ensures |r.events| == (if r.poll.accepted then 2 else 1)
    ensures r.poll.accepted ==> r.events[0] == r.poll.emitted.value
    ensures r.events[|r.events| - 1] == SomeoneIsHomeUpdate(true)
  {
    var poll := RequestTemp(data, last);
    var reading := if poll.emitted.Some? then [poll.emitted.value] else [];
    InfoRequest(poll, [RequestHeatingState(params)], reading + [RequestSomeoneIsHome()])
  }

  /** Asking twice about an unchanged file: the second request reports only
      occupancy, no temperature. */
  lemma RepeatedRequestInfo(params: Params, data: string, last: Option<string>)
    ensures RequestInfo(params, data, RequestInfo(params, data, last).poll.lastTimestamp).events == [SomeoneIsHomeUpdate(true)]
  {
    RequestTempDeduplicates(data, last);
  }

  /** The events of one request as the thermostat receives them, each
      handled while the schedule answers `schedule`. */
  function Delivered(events: seq<CommEvent>, schedule: Schedule): (occurrences: seq<Thermostat.Occurrence>)
    ensures |occurrences| == |events|
    ensures forall i | 0 <= i < |events| :: occurrences[i] == Thermostat.Occurrence(Thermostat.Received(events[i]), schedule)
  {
    seq(|events|, i requires 0 <= i < |events| => Thermostat.Occurrence(Thermostat.Received(events[i]), schedule))
  }

  /** What the constructor leaves behind: the file poll it made and the
      thermostat after the events of that first `requestInfo()` and, in
      run-once mode, the closing `tryKeepTemperature()`. */
  datatype Started = Started(info: InfoRequest, outcome: Thermostat.Outcome)

  /** `new Thermostat(runOnlyOnce)` with the sensor file holding `data`. */
  function Startup(runOnlyOnce: bool, params: Params, data: string, schedule: Schedule): (r: Started)
    ensures r.info == RequestInfo(params, data, None)
    ensures r.outcome.effects == []
    ensures r.outcome.state.heatingOn == Unknown
    ensures r.outcome.state.someoneIsHome
    ensures r.outcome.state.desiredTemperature == Thermostat.Initial.desiredTemperature
    ensures r.outcome.state.currentTemperature == (if r.info.poll.accepted then Some(r.info.poll.emitted.value.temp) else None)
  {
    var info := RequestInfo(params, data, None);
    var occurrences := Delivered(info.events, schedule) + [Thermostat.Occurrence(Thermostat.StartupCheck, schedule)];
    StartupSteps(runOnlyOnce, info.events, schedule);
    Started(info, Thermostat.Run(runOnlyOnce, Thermostat.Initial, occurrences))
  }

  /** The constructor's events, handled one by one: none of them evaluates,
      because the relay has not answered yet. */
  lemma StartupSteps(runOnlyOnce: bool, events: seq<CommEvent>, schedule: Schedule)
    requires 1 <= |events| <= 2
    requires events[|events| - 1] == SomeoneIsHomeUpdate(true)
    requires |events| == 2 ==> events[0].TemperatureChanged?
    ensures var r := Thermostat.Run(runOnlyOnce, Thermostat.Initial,
        Delivered(events, schedule) + [Thermostat.Occurrence(Thermostat.StartupCheck, schedule)]);
      && r.effects == []
      && r.state.heatingOn == Unknown
      && r.state.someoneIsHome
      && r.state.desiredTemperature == Thermostat.Initial.desiredTemperature
      && r.state.currentTemperature == (if |events| == 2 then Some(events[0].temp) else None)
  {
    var check := Thermostat.Occurrence(Thermostat.StartupCheck, schedule);
    var home := Thermostat.Occurrence(Thermostat.Received(SomeoneIsHomeUpdate(true)), schedule);
    Thermostat.RunCons(runOnlyOnce, Thermostat.Initial, check, []);
    if |events| == 2 {
      var reading := Thermostat.Occurrence(Thermostat.Received(events[0]), schedule);
      assert Delivered(events, schedule) + [check] == [reading] + ([home] + [check]);
      var s1 := Thermostat.Step(runOnlyOnce, Thermostat.Initial, reading).state;
      var s2 := Thermostat.Step(runOnlyOnce, s1, home).state;
      Thermostat.RunCons(runOnlyOnce, s2, check, []);
      Thermostat.RunCons(runOnlyOnce, s1, home, [check]);
      Thermostat.RunCons(runOnlyOnce, Thermostat.Initial, reading, [home] + [check]);
    } else {
      assert Delivered(events, schedule) + [check] == [home] + [check];
      var s1 := Thermostat.Step(runOnlyOnce, Thermostat.Initial, home).state;
      Thermostat.RunCons(runOnlyOnce, s1, check, []);
      Thermostat.RunCons(runOnlyOnce, Thermostat.Initial, home, [check]);
    }
  }

  /** In run-once mode the first evaluation happens when the relay answers,
      and since the MQTT payload is never strictly `'1'` the relay is taken
      to be off: the evaluation is that of a relay reported off, followed by
      the closing of the connections. */
  lemma FirstEvaluationOnRelayAnswer(params: Params, data: string, bytes: string, schedule: Schedule)
    requires Startup(true, params, data, schedule).info.poll.accepted
    ensures var s := Startup(true, params, data, schedule).outcome.state;
      var answer := OnMessage(params, params.topicOutput, Object(bytes));
      && answer == Some(HeatingStateChanged(false))
      && Thermostat.Step(true, s, Thermostat.Occurrence(Thermostat.Received(answer.value), schedule)).effects
        == KeepTemperature(s.(heatingOn := Known(false)), schedule).effects + [CloseConnections]
  {
    var s := Startup(true, params, data, schedule).outcome.state;
    BufferPayloadReadsAsOff(params, bytes);
    Thermostat.RelayReportCompletesReadings(s, false, schedule);
  }

  /** The MQTT messages the thermostat's relay commands become. */
  function Outgoing(params: Params, effects: seq<Effect>): (m: seq<Publish>)
    ensures |m| == CountSwitches(effects)
    ensures forall i | 0 <= i < |m| :: m[i].topic == params.topicInput && (m[i].payload == "on" || m[i].payload == "off")
    ensures forall i | 0 <= i < |m| :: (m[i].payload == "on" <==> Commands(effects)[i])
  {
    var c := Commands(effects);
    seq(|c|, i requires 0 <= i < |c| => ToggleHeating(params, c[i]))
  }
}

=== FILE: strings.dfy ===
/**
 The JavaScript string operations the temperature-file parser uses:
 `split('\n')`, `trim()`, and the greedy digit run that both `\d*` and
 `parseFloat` consume.
 */
module Strings {
  import opened JsValues

  /** Number of occurrences of `c` in `s`. */
  function Count(s: string, c: char): nat {
    if |s| == 0 then 0 else (if s[0] == c then 1 else 0) + Count(s[1..], c)
  }

  predicate NoNewline(s: string) {
    '\n' !in s
  }

  /** `pieces.join('\n')`. */
  function Join(pieces: seq<string>): string
    requires |pieces| >= 1
  {
    if |pieces| == 1 then pieces[0] else pieces[0] + "\n" + Join(pieces[1..])
  }

  /** `s.split('\n')`: one more piece than there are newlines, none of the
      pieces holds a newline, and joining them back gives `s`. */
  function Split(s: string): (pieces: seq<string>)
    ensures |pieces| == Count(s, '\n') + 1
    ensures forall i | 0 <= i < |pieces| :: NoNewline(pieces[i])
    ensures Join(pieces) == s
  {
    if |s| == 0 then [""]
    else if s[0] == '\n' then
      var rest := Split(s[1..]);
      assert [s[0]] + s[1..] == s;
      [""] + rest
    else
      var rest := Split(s[1..]);
      var head := [s[0]] + rest[0];
      assert [s[0]] + s[1..] == s;
      assert |rest| > 1 ==> Join(rest) == rest[0] + "\n" + Join(rest[1..]);
      assert |rest| > 1 ==> Join([head] + rest[1..]) == head + "\n" + Join(rest[1..]) by {
        if |rest| > 1 {
          assert ([head] + rest[1..])[1..] == rest[1..];
        }
      }
      [head] + rest[1..]
  }

  lemma CountZero(s: string)
    ensures Count(s, '\n') == 0 <==> NoNewline(s)
  {
    if |s| > 0 {
      CountZero(s[1..]);
      assert s == [s[0]] + s[1..];
    }
  }

  /** `split` yields a single piece exactly when there is no newline. */
  lemma SplitSingle(s: string)
    ensures |Split(s)| < 2 <==> NoNewline(s)
    ensures NoNewline(s) ==> Split(s) == [s]
  {
    CountZero(s);
  }

  lemma {:induction false} SplitAfterPiece(p: string, t: string)
    requires NoNewline(p)
    ensures Split(p + "\n" + t) == [p] + Split(t)
    decreases |p|
  {
    var s := p + "\n" + t;
    if |p| == 0 {
      assert s[0] == '\n' && s[1..] == t;
    } else {
      assert s[0] == p[0] && s[0] != '\n';
      assert s[1..] == p[1..] + "\n" + t;
      SplitAfterPiece(p[1..], t);
      assert [p[0]] + p[1..] == p;
    }
  }

  /** `split` undoes `join` on pieces free of newlines: the pieces are
      determined by the text. */
  lemma {:induction false} SplitJoin(pieces: seq<string>)
    requires |pieces| >= 1
    requires forall i | 0 <= i < |pieces| :: NoNewline(pieces[i])
    ensures Split(Join(pieces)) == pieces
    decreases |pieces|
  {
    if |pieces| == 1 {
      SplitSingle(pieces[0]);
    } else {
      SplitAfterPiece(pieces[0], Join(pieces[1..]));
      SplitJoin(pieces[1..]);
      assert [pieces[0]] + pieces[1..] == pieces;
    }
  }

  /** Text that ends in a newline splits into pieces whose last one is empty. */
  lemma {:induction false} SplitTrailingNewline(s: string)
    requires |s| > 0 && s[|s| - 1] == '\n'
    ensures Split(s)[|Split(s)| - 1] == ""
    decreases |s|
  {
    if |s| == 1 {
      assert Split(s) == [""] + Split(s[1..]);
    } else if s[0] == '\n' {
      SplitTrailingNewline(s[1..]);
    } else {
      assert s[1..][|s| - 2] == '\n';
      SplitSingle(s[1..]);
      SplitTrailingNewline(s[1..]);
      var rest := Split(s[1..]);
      assert Split(s) == [[s[0]] + rest[0]] + rest[1..];
    }
  }

  lemma ConcatSlices(x: string, y: string)
    ensures (x + y)[..|x|] == x && (x + y)[|x|..] == y
  {
  }

  /** The middle part of a three-part concatenation, sliced back out. */
  lemma MiddleSlice(x: string, y: string, z: string)
    ensures (x + (y + z))[|x|..|x| + |y|] == y
  {
    var s := x + (y + z);
    assert forall i | 0 <= i < |y| :: s[|x|..|x| + |y|][i] == y[i];
  }

  /** Length of the run of digits at the head of `s` (what a greedy `\d*` takes). */
  function DigitRun(s: string): (n: nat)
    ensures n <= |s|
    ensures AllDigits(s[..n])
    ensures n < |s| ==> !IsDigit(s[n])
  {
    if |s| > 0 && IsDigit(s[0]) then
      var n := 1 + DigitRun(s[1..]);
      assert s[..n] == [s[0]] + s[1..][..n - 1];
      n
    else 0
  }

  /** The index where the run of digits starting at index `i` of `s` ends:
      `DigitRun` read at a position instead of on a suffix (see `DigitsEndIsDigitRun`). */
  function DigitsEnd(s: string, i: nat): (e: nat)
    requires i <= |s|
    ensures i <= e <= |s|
    ensures forall j | i <= j < e :: IsDigit(s[j])
    ensures e < |s| ==> !IsDigit(s[e])
    decreases |s| - i
  {
    if i < |s| && IsDigit(s[i]) then DigitsEnd(s, i + 1) else i
  }

  /** A run of digits from `i` up to a non-digit (or the end) at `j` ends at `j`. */
  lemma {:induction false} DigitsEndAt(s: string, i: nat, j: nat)
    requires i <= j <= |s|
    requires forall k | i <= k < j :: IsDigit(s[k])
    requires j == |s| || !IsDigit(s[j])
    ensures DigitsEnd(s, i) == j
    decreases j - i
  {
    if i < j {
      DigitsEndAt(s, i + 1, j);
    }
  }

  /** The two forms of a digit run agree. */
  lemma {:induction false} DigitsEndIsDigitRun(s: string, i: nat)
    requires i <= |s|
    ensures DigitsEnd(s, i) == i + DigitRun(s[i..])
    decreases |s| - i
  {
    if i < |s| && IsDigit(s[i]) {
      assert s[i..][1..] == s[i + 1..];
      DigitsEndIsDigitRun(s, i + 1);
    }
  }

  /** A run of digits followed by a non-digit (or nothing) is taken whole. */
  lemma {:induction false} DigitRunOfDigits(a: string, rest: string)
    requires AllDigits(a)
    requires |rest| == 0 || !IsDigit(rest[0])
    ensures DigitRun(a + rest) == |a|
    decreases |a|
  {
    if |a| > 0 {
      assert (a + rest)[1..] == a[1..] + rest;
      DigitRunOfDigits(a[1..], rest);
    } else {
      assert a + rest == rest;
    }
  }

  /** Length of the white space at the head of `s`. */
  function LeadingWhiteSpace(s: string): (n: nat)
    ensures n <= |s|
    ensures AllWhiteSpace(s[..n])
    ensures n < |s| ==> !IsWhiteSpace(s[n])
  {
    if |s| > 0 && IsWhiteSpace(s[0]) then
      var n := 1 + LeadingWhiteSpace(s[1..]);
      assert s[..n] == [s[0]] + s[1..][..n - 1];
      n
    else 0
  }

  /** The index where the white space that ends at index `j` of `s` begins. */
  function WhiteSpaceStart(s: string, j: nat): (i: nat)
    requires j <= |s|
    ensures i <= j
    ensures forall k | i <= k < j :: IsWhiteSpace(s[k])
    ensures i > 0 ==> !IsWhiteSpace(s[i - 1])
  {
    if j > 0 && IsWhiteSpace(s[j - 1]) then WhiteSpaceStart(s, j - 1) else j
  }

  /** Length of the white space at the tail of `s`. */
  function TrailingWhiteSpace(s: string): (n: nat)
    ensures n <= |s|
    ensures AllWhiteSpace(s[|s| - n..])
    ensures n < |s| ==> !IsWhiteSpace(s[|s| - n - 1])
  {
    var i := WhiteSpaceStart(s, |s|);
    assert forall k | 0 <= k < |s| - i :: s[i..][k] == s[i + k];
    |s| - i
  }

  /** `s` is `r` with white space around it, and `r` neither starts nor ends with white space. */
  predicate TrimmedFrom(s: string, r: string, i: nat) {
    && i + |r| <= |s|
    && s[i..i + |r|] == r
    && AllWhiteSpace(s[..i])
    && AllWhiteSpace(s[i + |r|..])
  }

  /** `s.trim()`. */
  function Trim(s: string): (r: string)
    ensures exists i: nat :: TrimmedFrom(s, r, i)
    ensures |r| > 0 ==> !IsWhiteSpace(r[0]) && !IsWhiteSpace(r[|r| - 1])
  {
    var a := LeadingWhiteSpace(s);
    var t := s[a..];
    var b := TrailingWhiteSpace(t);
    var r := t[..|t| - b];
    assert s[a..a + |r|] == r;
    assert s[a + |r|..] == t[|t| - b..];
    assert TrimmedFrom(s, r, a);
    r
  }

  /** Trimming is idempotent. */
  lemma TrimIdempotent(s: string)
    ensures Trim(Trim(s)) == Trim(s)
  {
    var r := Trim(s);
    if |r| > 0 {
      assert LeadingWhiteSpace(r) == 0;
      assert r[0..] == r;
      assert TrailingWhiteSpace(r) == 0;
      assert r[..|r|] == r;
    }
  }
}

=== FILE: temperature_regex.dfy ===
/**
 The regular expression `/Temperature = (\d*.\d*)/` that config/communication.js
 applies to the last line of the sensor file. The `.` is not escaped, so it
 takes any one character other than a line terminator, and JavaScript's
 backtracking gives a digit back to it when nothing else is left.
 */
module TemperatureRegex {
  import opened JsValues
  import opened Wrappers
  import opened Strings

  /** The literal part of the pattern. */
  const Prefix: string := "Temperature = "

  /** `g` read as `\d*.\d*` with the `.` at index `i`. */
  predicate ShapeAt(g: string, i: int) {
    0 <= i < |g| && AllDigits(g[..i]) && !IsLineTerminator(g[i]) && AllDigits(g[i + 1..])
  }

  /** `g` is a whole match of `\d*.\d*`. */
  predicate GroupShape(g: string) {
    exists i | 0 <= i < |g| :: ShapeAt(g, i)
  }

  /** The first `n` characters of `t` match `\d*.\d*`. */
  predicate ShapedPrefix(t: string, n: nat) {
    n <= |t| && GroupShape(t[..n])
  }

  /** `g` is what the group captures at index `p` of `s`: the longest text
      there that matches `\d*.\d*`. */
  ghost predicate LongestGroupAt(s: string, p: nat, g: string) {
    && p + |g| <= |s|
    && s[p..p + |g|] == g
    && GroupShape(g)
    && forall n: nat | |g| < n :: !ShapedPrefix(s[p..], n)
  }

  /** The pattern matches with its first character at index `i`: the literal
      text is there and the `.` finds a character that is not a line terminator. */
  predicate MatchesAt(s: string, i: nat) {
    i + |Prefix| < |s| && s[i..i + |Prefix|] == Prefix && !IsLineTerminator(s[i + |Prefix|])
  }

  /** `i` is where `exec` reports the match: the first index at which the pattern matches. */
  predicate FirstMatch(s: string, i: nat) {
    MatchesAt(s, i) && forall j: nat | j < i :: !MatchesAt(s, j)
  }

  /** Where group 1 ends when it starts at `p`: after a greedy digit run, one
      character and a greedy digit run; when the first run is followed by
      nothing or by a line terminator, the `.` takes back the run's last
      digit and the group ends with that run. */
  function GroupEnd(s: string, p: nat): (e: nat)
    requires p < |s|
    ensures p < e <= |s| || (e == p && IsLineTerminator(s[p]))
  {
    var d := DigitsEnd(s, p);
    if d < |s| && !IsLineTerminator(s[d]) then DigitsEnd(s, d + 1) else d
  }

  /** The text group 1 captures when the match's group starts at `p`. */
  function GroupAt(s: string, p: nat): string
    requires p < |s| && !IsLineTerminator(s[p])
  {
    s[p..GroupEnd(s, p)]
  }

  /** The group is never empty and is the longest text at `p` matching `\d*.\d*`. */
  lemma GroupAtIsLongest(s: string, p: nat)
    requires p < |s| && !IsLineTerminator(s[p])
    ensures |GroupAt(s, p)| > 0 && LongestGroupAt(s, p, GroupAt(s, p))
  {
    var d := DigitsEnd(s, p);
    if d < |s| && !IsLineTerminator(s[d]) {
      GroupLongest(s, p, d, DigitsEnd(s, d + 1));
    } else {
      BackedOffGroupLongest(s, p, d);
    }
  }

  /** When a character the `.` can take follows the first digit run, the
      group runs to the end of the second digit run and no further. */
  lemma GroupLongest(s: string, p: nat, d: nat, e: nat)
    requires p <= d < |s| && d == DigitsEnd(s, p) && !IsLineTerminator(s[d])
    requires e == DigitsEnd(s, d + 1)
    ensures LongestGroupAt(s, p, s[p..e])
  {
    var g := s[p..e];
    assert ShapeAt(g, d - p) by {
      var before, after := g[..d - p], g[d - p + 1..];
      assert forall i | 0 <= i < |before| :: before[i] == s[p + i];
      assert forall i | 0 <= i < |after| :: after[i] == s[d + 1 + i];
    }
    var t := s[p..];
    forall n: nat | e - p < n <= |t|
      ensures !GroupShape(t[..n])
    {
      var h := t[..n];
      forall j | 0 <= j < |h|
        ensures !ShapeAt(h, j)
      {
        if j < d - p {
          assert h[j + 1..][d - p - j - 1] == s[d];
        } else if j > d - p {
          assert h[..j][d - p] == s[d];
        } else {
          assert h[j + 1..][e - d - 1] == s[e];
        }
      }
    }
  }

  /** When the first digit run ends the line or meets a line terminator, the
      run itself is the longest group, with the `.` on its last digit. */
  lemma BackedOffGroupLongest(s: string, p: nat, d: nat)
    requires p < |s| && !IsLineTerminator(s[p])
    requires d == DigitsEnd(s, p)
    requires d == |s| || IsLineTerminator(s[d])
    ensures p < d && LongestGroupAt(s, p, s[p..d])
  {
    var g := s[p..d];
    assert p < d;
    assert ShapeAt(g, d - p - 1) by {
      var before, after := g[..d - p - 1], g[d - p..];
      assert forall i | 0 <= i < |before| :: before[i] == s[p + i];
      assert |after| == 0;
    }
    var t := s[p..];
    forall n: nat | d - p < n <= |t|
      ensures !GroupShape(t[..n])
    {
      var h := t[..n];
      forall j | 0 <= j < |h|
        ensures !ShapeAt(h, j)
      {
        if j < d - p {
          assert h[j + 1..][d - p - j - 1] == s[d];
        } else if j > d - p {
          assert h[..j][d - p] == s[d];
        } else {
          assert h[j] == s[d];
        }
      }
    }
  }

  /** The index `exec` reports when it starts scanning at `from`. */
  function FindFrom(s: string, from: nat): (r: Option<nat>)
    requires from <= |s|
    ensures r.Some? ==> from <= r.value && MatchesAt(s, r.value)
    ensures r.Some? ==> forall j: nat | from <= j < r.value :: !MatchesAt(s, j)
    ensures r.None? ==> forall j: nat | from <= j :: !MatchesAt(s, j)
    decreases |s| - from
  {
    if MatchesAt(s, from) then Some(from)
    else if from == |s| then None
    else FindFrom(s, from + 1)
  }

  /** `/Temperature = (\d*.\d*)/.exec(line)`, reduced to capture group 1:
      None when nothing matches, otherwise the longest group at the first match. */
  function MatchTemperature(line: string): (r: Option<string>)
    ensures r.None? <==> forall i: nat :: !MatchesAt(line, i)
    ensures r.Some? ==> exists i: nat :: FirstMatch(line, i) && LongestGroupAt(line, i + |Prefix|, r.value)
  {
    match FindFrom(line, 0)
    case None => None
    case Some(i) =>
      assert FirstMatch(line, i);
      GroupAtIsLongest(line, i + |Prefix|);
      Some(GroupAt(line, i + |Prefix|))
  }

  /** A line that begins with the literal text is matched there. */
  lemma MatchAtStart(line: string)
    requires |Prefix| < |line| && line[..|Prefix|] == Prefix && !IsLineTerminator(line[|Prefix|])
    ensures MatchTemperature(line) == Some(GroupAt(line, |Prefix|))
  {
    assert MatchesAt(line, 0);
  }

  /** `Temperature = a.b` followed by anything but a digit captures `a.b`. */
  lemma CaptureDecimal(a: string, b: string, rest: string)
    requires AllDigits(a) && AllDigits(b)
    requires |rest| == 0 || !IsDigit(rest[0])
    ensures MatchTemperature(Prefix + ((a + ("." + b)) + rest)) == Some(a + ("." + b))
  {
    var group := a + ("." + b);
    var line := Prefix + (group + rest);
    var p := |Prefix|;
    var d := p + |a|;
    var e := d + 1 + |b|;
    assert line[..p] == Prefix && line[p] == group[0] by {
      ConcatSlices(Prefix, group + rest);
    }
    assert GroupAt(line, p) == group by {
      assert forall k | p <= k < d :: line[k] == a[k - p];
      assert line[d] == '.';
      assert forall k | d + 1 <= k < e :: line[k] == b[k - d - 1];
      assert e < |line| ==> line[e] == rest[0];
      DigitsEndAt(line, p, d);
      DigitsEndAt(line, d + 1, e);
      assert GroupEnd(line, p) == e;
      MiddleSlice(Prefix, group, rest);
    }
    MatchAtStart(line);
  }

  /** `Temperature = a` with nothing after the digits captures `a`: the `.`
      takes back the last digit. */
  lemma CaptureWholeNumber(a: string)
    requires |a| > 0 && AllDigits(a)
    ensures MatchTemperature(Prefix + a) == Some(a)
  {
    var line := Prefix + a;
    var p := |Prefix|;
    assert line[..p] == Prefix && line[p..] == a && line[p] == a[0] by {
      ConcatSlices(Prefix, a);
    }
    assert GroupAt(line, p) == a by {
      assert forall k | p <= k < |line| :: line[k] == a[k - p];
      DigitsEndAt(line, p, |line|);
      assert GroupEnd(line, p) == |line|;
    }
    MatchAtStart(line);
  }

  /** `Temperature = -a` followed by anything but a digit captures `-a`: the
      `.` takes the minus sign, so any decimal places after `a` are dropped. */
  lemma CaptureNegative(a: string, rest: string)
    requires AllDigits(a)
    requires |rest| == 0 || !IsDigit(rest[0])
    ensures MatchTemperature(Prefix + (("-" + a) + rest)) == Some("-" + a)
  {
    var group := "-" + a;
    var line := Prefix + (group + rest);
    var p := |Prefix|;
    var e := p + 1 + |a|;
    assert line[..p] == Prefix && line[p] == '-' by {
      ConcatSlices(Prefix, group + rest);
    }
    assert GroupAt(line, p) == group by {
      assert forall k | p + 1 <= k < e :: line[k] == a[k - p - 1];
      assert e < |line| ==> line[e] == rest[0];
      DigitsEndAt(line, p, p);
      DigitsEndAt(line, p + 1, e);
      assert GroupEnd(line, p) == e;
      MiddleSlice(Prefix, group, rest);
    }
    MatchAtStart(line);
  }

  /** A line with no room for the literal text and one more character never matches. */
  lemma ShortLineNoMatch(line: string)
    requires |line| <= |Prefix|
    ensures MatchTemperature(line) == None
  {
  }
}

=== FILE: thermostat.dfy ===
/**
 thermostat.js: the thermostat as a transition function over the events it
 receives, in one of its two modes.

 In run-once mode (the default) every heating or temperature event, and the
 check at the end of the constructor, goes through `tryKeepTemperature`,
 which evaluates only once both a temperature and a relay state have
 arrived, and then schedules `closeConnections`. In continuous mode the
 handlers only store, and the `keepTemperature` timers evaluate directly,
 without that gate.
 */
module Thermostat {
  import opened Wrappers
  import opened JsValues
  import opened CommunicationInterface
  import opened ControlState
  import opened Hysteresis
  import opened Evaluation

  /** The constructor's state: no readings, 14 degrees wanted, relay unknown. */
  const Initial: State := State(None, 14.0, None, None, Unknown, false)

  /** What reaches the thermostat: an interface event, a tick of the
      `keepTemperature` interval (or the one-minute timeout), or the
      `tryKeepTemperature()` at the end of the constructor. */
  datatype Event = Received(event: CommEvent) | KeepTemperatureTimer | StartupCheck

  /** An event with the answer the schedule would give if it were
      consulted while handling it. */
  datatype Occurrence = Occurrence(event: Event, schedule: Schedule)

  /** The state after some events and their side effects, in order. */
  datatype Outcome = Outcome(state: State, effects: seq<Effect>)

  /** Both readings needed for a decision have arrived. */
  predicate ReadyToEvaluate(s: State) {
    s.currentTemperature.Some? && s.heatingOn.Known?
  }

  /** `tryKeepTemperature()`: evaluate only when both readings are present;
      in run-once mode the connections are closed afterwards. */
  function TryKeepTemperature(s: State, schedule: Schedule, runOnlyOnce: bool): (r: Outcome)
    ensures !ReadyToEvaluate(s) ==> r == Outcome(s, [])
    ensures ReadyToEvaluate(s) ==> r.state == KeepTemperature(s, schedule).state
    ensures ReadyToEvaluate(s) ==> r.effects == KeepTemperature(s, schedule).effects + (if runOnlyOnce then [CloseConnections] else [])
    ensures CloseConnections in r.effects <==> ReadyToEvaluate(s) && runOnlyOnce
    ensures CloseConnections in r.effects ==> r.effects[|r.effects| - 1] == CloseConnections
    ensures CountSwitches(r.effects) <= 1
  {
    if ReadyToEvaluate(s) then
      var run := KeepTemperature(s, schedule);
      var closing := if runOnlyOnce then [CloseConnections] else [];
      CountSwitchesAppend(run.effects, closing);
      Outcome(run.state, run.effects + closing)
    else Outcome(s, [])
  }

  /** One event, handled as thermostat.js handles it in the given mode. */
  function Step(runOnlyOnce: bool, s: State, o: Occurrence): (r: Outcome)
    ensures CountSwitches(r.effects) <= 1
    ensures o.event.Received? && (!runOnlyOnce || o.event.event.SomeoneIsHomeUpdate?)
      ==> r == Outcome(ApplyEvent(s, o.event.event), [])
    ensures runOnlyOnce && o.event.Received? && !o.event.event.SomeoneIsHomeUpdate?
      ==> r == TryKeepTemperature(ApplyEvent(s, o.event.event), o.schedule, true)
    ensures !runOnlyOnce && o.event.KeepTemperatureTimer?
      ==> r.state == KeepTemperature(s, o.schedule).state && r.effects == KeepTemperature(s, o.schedule).effects
    ensures runOnlyOnce && o.event.KeepTemperatureTimer? ==> r == Outcome(s, [])
    ensures o.event.StartupCheck? ==> r == (if runOnlyOnce then TryKeepTemperature(s, o.schedule, true) else Outcome(s, []))
  {
    match o.event
    case Received(e) =>
      var t := ApplyEvent(s, e);
      if runOnlyOnce && !e.SomeoneIsHomeUpdate? then TryKeepTemperature(t, o.schedule, runOnlyOnce)
      else Outcome(t, [])
    case KeepTemperatureTimer =>
      if runOnlyOnce then Outcome(s, [])
      else
        var run := KeepTemperature(s, o.schedule);
        Outcome(run.state, run.effects)
    case StartupCheck =>
      if runOnlyOnce then TryKeepTemperature(s, o.schedule, runOnlyOnce) else Outcome(s, [])
  }

  /** The events handled one after the other, effects collected in order:
      at most one relay command per event handled. */
  function Run(runOnlyOnce: bool, s: State, occurrences: seq<Occurrence>): (r: Outcome)
    ensures CountSwitches(r.effects) <= |occurrences|
    decreases |occurrences|
  {
    if |occurrences| == 0 then Outcome(s, [])
    else
      var first := Step(runOnlyOnce, s, occurrences[0]);
      var rest := Run(runOnlyOnce, first.state, occurrences[1..]);
      CountSwitchesAppend(first.effects, rest.effects);
      Outcome(rest.state, first.effects + rest.effects)
  }

  /** Handling a first event, then the rest. */
  lemma RunCons(runOnlyOnce: bool, s: State, o: Occurrence, rest: seq<Occurrence>)
    ensures Run(runOnlyOnce, s, [o] + rest)
      == Outcome(Run(runOnlyOnce, Step(runOnlyOnce, s, o).state, rest).state,
          Step(runOnlyOnce, s, o).effects + Run(runOnlyOnce, Step(runOnlyOnce, s, o).state, rest).effects)
  {
    assert ([o] + rest)[1..] == rest;
  }

  /** No heating-state event among the occurrences. */
  predicate NoRelayReport(occurrences: seq<Occurrence>) {
    forall i | 0 <= i < |occurrences| :: !(occurrences[i].event.Received? && occurrences[i].event.event.HeatingStateChanged?)
  }

  /** In run-once mode nothing at all happens until the relay has reported:
      no command, no log, no closing of connections. */
  lemma {:induction false} RunOnceSilentUntilRelayKnown(s: State, occurrences: seq<Occurrence>)
    requires s.heatingOn == Unknown
    requires NoRelayReport(occurrences)
    ensures Run(true, s, occurrences).effects == []
    ensures Run(true, s, occurrences).state.heatingOn == Unknown
    decreases |occurrences|
  {
    if |occurrences| > 0 {
      var first := Step(true, s, occurrences[0]);
      assert first.effects == [] && first.state.heatingOn == Unknown;
      assert NoRelayReport(occurrences[1..]) by {
        assert forall i | 0 <= i < |occurrences| - 1 :: occurrences[1..][i] == occurrences[i + 1];
      }
      RunOnceSilentUntilRelayKnown(first.state, occurrences[1..]);
    }
  }

  /** Once the relay has reported, its state stays known through any events. */
  lemma {:induction false} RelayStaysKnown(runOnlyOnce: bool, s: State, occurrences: seq<Occurrence>)
    requires s.heatingOn.Known?
    ensures Run(runOnlyOnce, s, occurrences).state.heatingOn.Known?
    decreases |occurrences|
  {
    if |occurrences| > 0 {
      var first := Step(runOnlyOnce, s, occurrences[0]);
      var o := occurrences[0];
      if o.event.Received? {
        ApplyEventKeepsRelayKnown(s, o.event.event);
        KeepTemperatureKeepsReadings(ApplyEvent(s, o.event.event), o.schedule);
      } else {
        KeepTemperatureKeepsReadings(s, o.schedule);
      }
      assert first.state.heatingOn.Known?;
      RelayStaysKnown(runOnlyOnce, first.state, occurrences[1..]);
    }
  }

  /** No report that the relay is on among the occurrences. */
  predicate NoReportOfRelayOn(occurrences: seq<Occurrence>) {
    forall i | 0 <= i < |occurrences| :: occurrences[i].event != Received(HeatingStateChanged(true))
  }

  /** Continuous mode never switches the heating off while the relay has
      never been reported on: the switch-off branch needs `heatingOn` to be
      true, and only a relay report can set it. */
  lemma {:induction false} NoSwitchOffUntilRelayOn(s: State, occurrences: seq<Occurrence>)
    requires s.heatingOn != Known(true)
    requires NoReportOfRelayOn(occurrences)
    ensures SwitchHeating(false) !in Run(false, s, occurrences).effects
    ensures Run(false, s, occurrences).state.heatingOn != Known(true)
    decreases |occurrences|
  {
    if |occurrences| > 0 {
      var o := occurrences[0];
      var first := Step(false, s, o);
      var rest := Run(false, first.state, occurrences[1..]);
      if o.event.KeepTemperatureTimer? {
        KeepTemperatureKeepsReadings(s, o.schedule);
      }
      assert SwitchHeating(false) !in first.effects && first.state.heatingOn != Known(true);
      assert NoReportOfRelayOn(occurrences[1..]) by {
        assert forall i | 0 <= i < |occurrences| - 1 :: occurrences[1..][i] == occurrences[i + 1];
      }
      NoSwitchOffUntilRelayOn(first.state, occurrences[1..]);
      assert SwitchHeating(false) !in first.effects + rest.effects;
    }
  }

  /** The timers evaluate without the gate: in continuous mode a cold room
      is heated although the relay has never reported its state. */
  lemma TimerBypassesGate(c: real, name: string, temperature: real, low: real, high: real)
    requires c != 0.0 && c < temperature - low
    ensures !ReadyToEvaluate(Initial.(currentTemperature := Some(Finite(c))))
    ensures Step(false, Initial.(currentTemperature := Some(Finite(c))),
      Occurrence(KeepTemperatureTimer, Program(name, temperature, low, high))).effects[0] == SwitchHeating(true)
  {
  }

  /** The heating-state handler writes only `heatingOn`; in continuous mode
      it does nothing else. */
  lemma HeatingHandlerFrame(s: State, on: bool, schedule: Schedule)
    ensures Step(false, s, Occurrence(Received(HeatingStateChanged(on)), schedule)) == Outcome(s.(heatingOn := Known(on)), [])
  {
  }

  /** The occupancy handler stores the flag and never evaluates, in either mode. */
  lemma OccupancyHandlerNeverEvaluates(runOnlyOnce: bool, s: State, home: bool, schedule: Schedule)
    ensures Step(runOnlyOnce, s, Occurrence(Received(SomeoneIsHomeUpdate(home)), schedule)) == Outcome(s.(someoneIsHome := home), [])
  {
  }

  /** In run-once mode, a relay report that completes the readings triggers
      exactly one evaluation, followed by the closing of the connections. */
  lemma RelayReportCompletesReadings(s: State, on: bool, schedule: Schedule)
    requires s.currentTemperature.Some?
    ensures Step(true, s, Occurrence(Received(HeatingStateChanged(on)), schedule)).effects
      == KeepTemperature(s.(heatingOn := Known(on)), schedule).effects + [CloseConnections]
  {
  }
}

=== FILE: wrappers.dfy ===
/** The optional-value datatype used for JavaScript's `null`-or-value fields. */
module Wrappers {

  /** `None` stands for `null` (or "no value"), `Some(v)` for a present value. */
  datatype Option<+T> = None | Some(value: T)
}
